=== FILE: README.md ===
# Ability Explorer in Dafny

Ability Explorer is a WordPress admin plugin for the Abilities API introduced in
WordPress 6.9. It does four things:

- It lists every registered ability, classifies it by provider (Core, Plugin or
  Theme) and counts the abilities per provider.
- It shows the abilities in a searchable, filterable, sortable and paginated
  table.
- It pre-fills an example input from an ability's input schema, checks the input
  in the browser (JavaScript) and again on the server (PHP), then invokes the
  ability through an AJAX endpoint.
- It ships a demo ability, "get-site-health", that an AJAX toggle switches on and
  off. The ability runs the Site Health tests and reports a status and a score.

This project models that logic as pure Dafny functions over immutable data, and
proves what each step guarantees. Values are PHP arrays and JSON values, modelled
as one tagged type (`Values.Value`): a map is an ordered list of entries, and
`EmptyObject` stands for `stdClass`/`{}`. PHP's `isset`, `empty()`, truthiness,
`is_numeric`, `stripos` and `strcasecmp` are written out, and so are JavaScript's
`in`, `typeof` and `Object.keys` order.

Modules, one per file:

- `Values` (values.dfy): the value model, entry lists, `$arr[$k] = v`, and PHP's
  `isset`, `empty()`, truthiness and `is_numeric`.
- `Text` (text.dfy): ASCII case folding, `stripos` and `strcasecmp`.
- `Seqs` (seqs.dfy) and `Sorting` (sorting.dfy): filtering, subsequences and
  counting, plus a stable insertion sort that stands for PHP 8's stable `usort`.
- `Schemas` (schema.dfy): the input-schema record.
- `Messages` (messages.dfy): the validation messages shared by both validators,
  and the error lists they build.
- `Validator` (validator.dfy): the server-side `validate_input` and
  `validate_type`.
- `ClientValidator` (client_validator.dfy): the browser-side
  `validateAgainstSchema` and `validateType`.
- `Escape` (escape.dfy): the browser's `escapeHtml`.
- `ExampleInput` (example_input.dfy): `generate_example_input` and
  `get_example_value`.
- `Handler` (handler.dfy): listing, formatting, provider detection, statistics
  and `invoke_ability`.
- `AdminAjax` (admin_ajax.dfy): the invoke and toggle AJAX endpoints.
- `AbilityTable` (ability_table.dfy): `prepare_items`, which searches, filters,
  sorts and paginates.
- `SiteHealth` (site_health.dfy): the demo ability's callback.
- `Bootstrap` (bootstrap.dfy): the WordPress version gate, the Abilities API
  check and `init`.

Calls into WordPress are parameters:
- the registry (`wp_get_abilities`, `wp_get_ability`);
- `WP_Ability::execute`, as a function from the call to its outcome;
- the Site Health test callbacks, each of which is not callable, returns a
  result or throws;
- the active theme's stylesheet and template;
- the option store, as a map;
- the nonce and capability checks, as booleans;
- the current page number.

## Model

| member | source | states |
|---|---|---|
| Values.PutLookup | admin/class-admin-page.php:401-403 | After `$input[$k] = v` the key `$k` reads `v` and every other key reads as before. |
| Values.PutKeys | admin/class-admin-page.php:401-403 | Assigning keeps the key order; a new key is appended at the end. |
| Values.EmptyStringIsFalsy | includes/class-ability-table.php:74 | PHP `empty()` on a string (its conversion to false) holds exactly for "" and "0". |
| Values.NumericStringExamples | includes/class-ability-handler.php:262-263 | "30", "-1.5" and ".5" count as numeric; "thirty", "", "1.2.3" and "-" do not. |
| Text.FindCI | includes/class-ability-table.php:79-81 | The result is the first position at or after `from` where the needle occurs, ignoring case; `None` means it occurs nowhere after `from`. |
| Text.StrIPosFindsExactlyContainment | includes/class-ability-table.php:79-81 | `stripos(...) !== false` holds exactly when the needle occurs in the haystack, ignoring ASCII case. |
| Text.StrCaseCmp | includes/class-ability-table.php:105 | The sign of `strcasecmp`; it is 0 exactly when both strings fold to the same lower case. |
| Text.StrCaseCmpAntisymmetric | includes/class-ability-table.php:105 | Swapping the arguments of `strcasecmp` negates the sign. |
| Text.StrCaseCmpTransitive | includes/class-ability-table.php:105 | `strcasecmp` order is transitive, so it is a total preorder for `usort`. |
| Text.StrCaseCmpIsLexicographic | includes/class-ability-table.php:105 | `strcasecmp` is negative exactly when the case-folded first string comes first in lexicographic order: a proper prefix, or smaller at the first position where they differ. |
| Sorting.InsertionSort | includes/class-ability-table.php:100-111 | The sort returns a permutation of its input. |
| Sorting.InsertionSortSorted | includes/class-ability-table.php:100-111 | Under a total preorder, the result is sorted. |
| Sorting.InsertionSortKeepsSorted | includes/class-ability-table.php:100-111 | An input already in order is a fixed point; in particular a comparator that finds every pair equal leaves the order alone. |
| Sorting.InsertionSortStable | includes/class-ability-table.php:100-111 | Stability of PHP 8 `usort`: under a total preorder, the elements that tie with any given element keep their relative input order. |
| Messages.MissingErrorsCount | includes/class-ability-handler.php:218-224 | For each name: one missing-field message per listing in `required` when the name is absent, none when present. |
| Messages.TypeErrorsMembers | includes/class-ability-handler.php:227-240 | A wrong-type message appears exactly for a flagged property, naming it and its declared type. |
| Messages.ReportOrdered | includes/class-ability-handler.php:217-245 | The report is all missing-field messages, in `required` order, followed only by wrong-type messages. |
| Validator.ValidateInput | includes/class-ability-handler.php:207-246 | An empty schema is valid with no errors; a result is valid exactly when there are no errors; at most one error per required name and per property. |
| Validator.RequiredErrorCount | includes/class-ability-handler.php:218-224 | The count of a field's missing message is its number of listings in `required` when the input does not `isset` it; false, 0 and "" count as set. |
| Validator.MissingReportedIff | includes/class-ability-handler.php:210-224 | A field is reported missing iff the schema is non-empty, requires it and the input does not set it (null counts as unset). |
| Validator.TypeErrorIff | includes/class-ability-handler.php:227-240 | A wrong-type message appears iff a property with a single type name is set in the input and fails `validate_type`. |
| Validator.ErrorsOrdered | includes/class-ability-handler.php:217-240 | Missing-field errors come first, in `required` order; after them come exactly the type errors, in `properties` declaration order. |
| Validator.LooseTyping | includes/class-ability-handler.php:255-271 | `validate_type` (`Validator.ValidateType`): numeric strings pass as integer, floats pass as integer, lists pass as object, null fails; an unknown type accepts everything. |
| Validator.ScenarioMissingName | includes/class-ability-handler.php:207-246 | `{age: "30"}` against a schema requiring `name` yields exactly the missing-name error. |
| Validator.ScenarioWrongType | includes/class-ability-handler.php:207-246 | `{name: "Ann", age: "thirty"}` yields exactly the wrong-type error for `age`. |
| ClientValidator.Lookup | assets/js/admin.js:218-220 | A property read finds an own value exactly when the input has the key; otherwise it finds an inherited prototype member or nothing. |
| ClientValidator.KeyOrderPermutes | assets/js/admin.js:217 | `Object.keys` visits every declared property exactly as often as it is declared. |
| ClientValidator.KeyOrderIsDeclarationOrder | assets/js/admin.js:217 | Without array-index names, `Object.keys` is the declaration order. |
| ClientValidator.KeyOrderIndicesAscending | assets/js/admin.js:217 | Array-index names come first, in ascending numeric order. |
| ClientValidator.ValidateAgainstSchema | assets/js/admin.js:203-233 | `in` on a primitive throws, exactly when there is something to check; an empty schema gives no errors. |
| ClientValidator.RequiredErrorCount | assets/js/admin.js:207-213 | A field is reported missing once per listing in `required` exactly when it is not `in` the input. |
| ClientValidator.TypeErrorIff | assets/js/admin.js:217-229 | A wrong-type message appears iff a property is `in` the input, has a non-empty single type name, and `validateType` rejects it. |
| ClientValidator.ErrorsOrdered | assets/js/admin.js:203-233 | Missing-field errors in `required` order, then exactly the type errors in `Object.keys` order. |
| ClientValidator.NullIsPresentInBrowserOnly | assets/js/admin.js:209 | A required key holding null is missing for the server but present for the browser. |
| ClientValidator.StrictTyping | assets/js/admin.js:238-254 | `validateType` (`ClientValidator.ValidateType`): the browser rejects "30" as integer and a list as object, accepts null as object and rejects an inherited method; the server disagrees on the first three. |
| Escape.EscapeHtml | assets/js/admin.js:371-383 | The output is never shorter and contains no `<`, `>`, `"` or `'`. |
| Escape.EscapeRoundTrip | assets/js/admin.js:371-383 | Decoding the five entities gives back the original text. |
| Escape.EscapeConcat | assets/js/admin.js:380-382 | Escaping works character by character: it distributes over concatenation. |
| Escape.EscapePlainText | assets/js/admin.js:380-382 | Text with none of the five characters is unchanged. |
| Escape.EscapeExample | assets/js/admin.js:371-383 | "a<b" becomes "a&lt;b". |
| ExampleInput.Placeholder | admin/class-admin-page.php:423-439 | The placeholder is null exactly for a type array or a type name the switch does not know. |
| ExampleInput.GenerateExampleInput | admin/class-admin-page.php:394-406 | An empty schema, or one without `properties`, gives an empty array. |
| ExampleInput.GeneratedValuePriority | admin/class-admin-page.php:394-440 | `generate_example_input` with `get_example_value` (`ExampleInput.ExampleValue`): under a property's name (its last declaration), the generated input holds its set `default`, else its set `example`, else its type's placeholder; null only when all three are null. |
| ExampleInput.PlaceholderConforms | admin/class-admin-page.php:423-439 | Each known type's placeholder passes that type in both validators. |
| ExampleInput.CollectKeys | admin/class-admin-page.php:400-403 | The generated input has exactly the property names, in declaration order. |
| ExampleInput.CollectLast | admin/class-admin-page.php:400-403 | Each name holds the example value of its last declaration. |
| ExampleInput.CollectAbsent | admin/class-admin-page.php:400-403 | Undeclared names get no entry. |
| ExampleInput.GeneratedPassesServer | admin/class-admin-page.php:394-440 | With no defaults or examples, known types, and declared required names, the server accepts the generated input. |
| ExampleInput.GeneratedPassesBrowser | admin/class-admin-page.php:394-440 | Under the same conditions, with any types, the browser accepts it too. |
| ExampleInput.RequiredUnionPrefilledAsMissing | admin/class-admin-page.php:437-438 | A required `["string","null"]` property is pre-filled with null, which the server rejects as missing and the browser accepts. |
| ExampleInput.NestedObjectStaysEmpty | admin/class-admin-page.php:435-436 | An object property is pre-filled with `{}`; nested properties are not generated. |
| Handler.Explode | includes/class-ability-handler.php:124 | `explode('/')` yields at least one piece, and no piece contains '/'. |
| Handler.ExplodeRoundTrip | includes/class-ability-handler.php:124 | Joining the pieces with '/' gives back the name. |
| Handler.ExplodeCount | includes/class-ability-handler.php:124-125 | There is one more piece than there are slashes. |
| Handler.DetectProvider | includes/class-ability-handler.php:118-142 | A set meta `provider` is returned as is; otherwise the result is Core, Theme or Plugin. |
| Handler.ProviderByName | includes/class-ability-handler.php:124-141 | Core iff one slash under wordpress/wp/core; Theme iff one slash under the stylesheet or template; Plugin otherwise. |
| Handler.CoreExample | includes/class-ability-handler.php:124-131 | "wp/info" is Core. |
| Handler.PluginExample | includes/class-ability-handler.php:124-141 | "wp/a/b" has three pieces, so it is Plugin. |
| Handler.MetaExample | includes/class-ability-handler.php:119-121 | Meta `provider` "Custom" overrides the name. |
| Handler.Format | includes/class-ability-handler.php:85-109 | The entry's slug is the ability name, and its input schema is the ability's. |
| Handler.GetAllAbilities | includes/class-ability-handler.php:19-32 | Without the API the list is empty; otherwise one formatted entry per registered ability, in order. |
| Handler.Find | includes/class-ability-handler.php:46 | The lookup finds a registered ability of that name exactly when one exists. |
| Handler.GetAbility | includes/class-ability-handler.php:40-57 | An entry is returned iff the API exists and the name is registered, and it carries that slug. |
| Handler.CountProvider | includes/class-ability-handler.php:289-297 | The count for a provider is the number of entries whose provider is exactly that string (so never more than the number of entries). |
| Handler.ProviderCounts | includes/class-ability-handler.php:289-297 | The loop throws exactly when some provider is an array or an object, since PHP 8's `isset` refuses it as an offset. Otherwise its Core, Plugin and Theme counters are the exact-string counts. |
| Handler.GetStatistics | includes/class-ability-handler.php:278-300 | `get_statistics` throws (`None`) exactly when some listed ability's provider is an array or an object. Otherwise `total` is the number of listed abilities, and `by_provider` Core, Plugin and Theme are the numbers of listed abilities whose provider is exactly "Core", "Plugin" and "Theme". |
| Handler.CountsBounded | includes/class-ability-handler.php:289-297 | The three provider counts sum to at most the number of entries, with equality iff every provider is Core, Plugin or Theme. |
| Handler.StatisticsSum | includes/class-ability-handler.php:278-300 | When `get_statistics` returns, the per-provider counts sum to at most `total`, with equality iff no custom provider. |
| Handler.StatisticsCountAllByName | includes/class-ability-handler.php:278-300 | Without meta providers `get_statistics` does not throw, and every ability is counted once. |
| Handler.InvokeAbility | includes/class-ability-handler.php:151-198 | For an `execute` that returns or throws an `Exception`: execute is called iff the API exists and the ability is found, with no argument iff the schema is empty; success iff it returns; the two refusal messages. |
| Handler.InvokeReportsOutcome | includes/class-ability-handler.php:176-197 | A return becomes success with the data; a `WP_Error` becomes its message, code and data; an exception becomes its message and trace. |
| AdminAjax.AjaxInvoke | admin/class-admin-page.php:445-513 | A failed nonce check ends the request with no call; a success response implies a call was made. |
| AdminAjax.InvokeGate | admin/class-admin-page.php:445-497 | Execute is called iff the nonce, capability, non-empty slug, registry lookup and server validation all pass; it is called on that ability. |
| AdminAjax.ValidationFailureReported | admin/class-admin-page.php:482-493 | Invalid input is answered with the validator's own error list, and nothing runs. |
| AdminAjax.InvokeResponseFollowsOutcome | admin/class-admin-page.php:496-512 | The response passes on the data, or the error message with the exception's trace (or null). |
| AdminAjax.ZeroSlugRejected | admin/class-admin-page.php:463-469 | `empty()` rejects the slug "0". |
| AdminAjax.AjaxToggle | admin/class-admin-page.php:594-634 | Success iff key non-empty, nonce valid, user allowed and key "site-health"; a failure leaves the store unchanged; other options are never touched. |
| AdminAjax.ToggleNegates | admin/class-admin-page.php:622-632 | The stored flag becomes the negation of the old one (false when unset), and the response reports it. |
| AdminAjax.ToggleTwice | admin/class-admin-page.php:622-624 | Toggling twice restores the flag's truth value, and restores the store when the flag was a boolean. |
| AbilityTable.SearchFilter | includes/class-ability-table.php:73-83 | The search keeps a subsequence of the rows, and a search that PHP `empty()` rejects ("" or "0") keeps every row. |
| AbilityTable.SearchKeepsExactlyMatches | includes/class-ability-table.php:74-83 | A non-empty search keeps exactly the rows whose name, slug or description contains it, ignoring case. |
| AbilityTable.ProviderFilter | includes/class-ability-table.php:86-94 | The provider filter keeps a subsequence of the rows, and a filter of "", "0" or "all" keeps every row. |
| AbilityTable.ProviderFilterKeepsExactly | includes/class-ability-table.php:87-94 | A non-empty filter other than "all" keeps exactly the rows whose provider is strictly that string. |
| AbilityTable.SortItems | includes/class-ability-table.php:100-111 | The sort is a permutation. |
| AbilityTable.ProviderTextExamples | includes/class-ability-table.php:105-106 | `strcasecmp` reads an integer provider as its decimal numeral (5 as "5", -12 as "-12") and a boolean one as "1" or ""; an array has no string form. |
| AbilityTable.ComparePreorder | includes/class-ability-table.php:102-109 | On rows that all have the column, the comparator is a total preorder in either direction. |
| AbilityTable.SortOrdersByKey | includes/class-ability-table.php:100-111 | When every row has the column, rows are in `strcasecmp` order, ascending for "asc" and descending otherwise. |
| AbilityTable.TieMeansSameKey | includes/class-ability-table.php:102-109 | Two rows tie under the `usort` callback exactly when their column values are equal ignoring case, in either direction. |
| AbilityTable.SortKeepsTiesInOrder | includes/class-ability-table.php:100-111 | When every row has the column, rows whose values are equal ignoring case (such as "Apple" and "apple") keep their relative order. |
| AbilityTable.UnknownColumnKeepsOrder | includes/class-ability-table.php:104-108 | An `orderby` that names no column compares everything equal, so the stable sort keeps the order. |
| AbilityTable.ArraySlice | includes/class-ability-table.php:126 | `array_slice` returns the contiguous window starting at the clamped offset: `length` items, or all that remain when fewer do. |
| AbilityTable.CeilDiv | includes/class-ability-table.php:122 | `ceil(n / d)` is the least q with n <= q·d. |
| AbilityTable.Paginate | includes/class-ability-table.php:113-126 | `total_items` is the row count and a page holds at most 20 rows. |
| AbilityTable.PageWindow | includes/class-ability-table.php:113-126 | Page p holds rows from (p-1)·20 onwards, in order; it is non-empty up to the last page and empty beyond. |
| AbilityTable.EveryRowOnItsPage | includes/class-ability-table.php:113-126 | Row k appears on page k/20+1 at position k mod 20. |
| AbilityTable.FilteredIsSubseq | includes/class-ability-table.php:73-94 | Search then provider filter yields a subsequence. |
| AbilityTable.PrepareItemsShape | includes/class-ability-table.php:62-127 | `prepare_items` (`AbilityTable.PrepareItems`): the item count is the number of abilities that passed the search and provider filters, and there are ceil(count / 20) pages. The rows shown come from the filtered abilities only. On page p (p >= 1) they are the filtered abilities, sorted by the requested column (default `name`) and direction (default `asc`), from position (p - 1) * 20 on, in order. |
| AbilityTable.DefaultView | includes/class-ability-table.php:97-126 | With no query, all rows count, pages are ceil(n/20), and page 1 is the first 20 rows in case-insensitive name order. |
| SiteHealth.RunAll | abilities/site-health.php:121-124 | The loop aborts exactly when some direct test's callback throws, and then with the first such test's exception. Otherwise the results are, in test order, the returns of the callable tests; so at most one per test. |
| SiteHealth.Collect | abilities/site-health.php:121-124 | Over the calls in order: aborted iff some call threw, with the first throw's exception; otherwise exactly the returned results. |
| SiteHealth.AggregateCounts | abilities/site-health.php:121-139 | Each of good/recommended/critical counts exactly the results with that status, compared strictly. |
| SiteHealth.AggregateIssues | abilities/site-health.php:130-135 | One critical issue per critical result, in test order, with the label and description defaults. |
| SiteHealth.CountsBounded | abilities/site-health.php:121-143 | The counted total is at most the number of results, equal iff every status is one of the three; one issue per critical count. |
| SiteHealth.OverallStatus | abilities/site-health.php:146-152 | Critical iff any critical; recommended iff none critical and some recommended; good otherwise (also with no tests). |
| SiteHealth.ScoreIsNearestPercentage | abilities/site-health.php:143-144 | The score is good/total·100 rounded to the nearest integer, halves up, and lies in 0..100. |
| SiteHealth.ScoreExtremes | abilities/site-health.php:143-144 | Below 200 counted tests, the score is 100 iff all are good and 0 iff none is. |
| SiteHealth.ScoreRoundsUpToFull | abilities/site-health.php:143-152 | 199 good of 200 scores 100 while the status is "recommended". |
| SiteHealth.ExecuteRaises | abilities/site-health.php:121-124 | `execute_callback` raises exactly when some direct test's callback throws, and then with the first such test's exception. |
| SiteHealth.ExecuteReports | abilities/site-health.php:100-169 | `execute_callback` (`SiteHealth.Execute`): when no test throws, it returns a response whose status, score and critical issues come from the tally of the callable tests; `tests` is present iff `include_details` is truthy, and is then the raw tests. |
| SiteHealth.Execute | abilities/site-health.php:100-169 | The callback either returns a response or raises; it never returns a `WP_Error`. |
| SiteHealth.ExecuteCounts | abilities/site-health.php:113-160 | When no test throws, the response's `counts` holds, for "good", "recommended" and "critical", the number of callable direct tests whose result carries exactly that status. |
| SiteHealth.NoTestsIsGood | abilities/site-health.php:143-152 | With no callable tests and no throw, the callback returns, the status is "good" and the score is 0. |
| Bootstrap.StripPreRelease | abilitiesexplorer.php:104 | The result is the input cut just before the first `-beta`/`-rc`/`-alpha` (any case); that cut is a prefix, and the input itself when there is no marker. |
| Bootstrap.StripIdempotent | abilitiesexplorer.php:104 | Stripping twice equals stripping once. |
| Bootstrap.NoMarkerUnchanged | abilitiesexplorer.php:104 | A version without a marker is left unchanged. |
| Bootstrap.StripMarkedSuffix | abilitiesexplorer.php:102-104 | A release followed by a suffix starting with a marker strips to the release. |
| Bootstrap.ParseRender | abilitiesexplorer.php:106 | Parsing a rendered dotted version gives back its components. |
| Bootstrap.CompareVersions | abilitiesexplorer.php:106 | The comparison is -1, 0 or 1, and 0 exactly for equal versions. |
| Bootstrap.CompareAntisymmetric | abilitiesexplorer.php:106 | Swapping the arguments negates the comparison. |
| Bootstrap.CompareTransitive | abilitiesexplorer.php:106 | The version order is transitive. |
| Bootstrap.CompareIsLexicographic | abilitiesexplorer.php:106 | "Lower" means lexicographically smaller, numerically per component, with a proper prefix first. |
| Bootstrap.CheckWpVersion | abilitiesexplorer.php:99-107 | A verdict is given exactly when the stripped version is dotted decimal. |
| Bootstrap.ReleaseCheck | abilitiesexplorer.php:99-107 | A release passes exactly when it is not lexicographically below 6.9. |
| Bootstrap.PreReleaseJudgedAsRelease | abilitiesexplorer.php:102-106 | A pre-release gets the verdict of the release it precedes. |
| Bootstrap.BetaPasses | abilitiesexplorer.php:102-106 | 6.9-beta1 passes. |
| Bootstrap.ReleaseCandidatePasses | abilitiesexplorer.php:102-106 | 6.9-RC1 passes; case is ignored. |
| Bootstrap.NumericComponentsPass | abilitiesexplorer.php:106 | 6.10 passes: components compare as numbers. |
| Bootstrap.OlderReleaseFails | abilitiesexplorer.php:106 | 6.8.3 fails. |
| Bootstrap.ApiCheckMonotone | abilitiesexplorer.php:112-130 | `check_abilities_api` (`Bootstrap.CheckAbilitiesApi`): making more of the API available never fails the check. |
| Bootstrap.ApiCheckNeedsBothFunctions | abilitiesexplorer.php:115-129 | Without the class, one function alone fails; a skip constant of "0" or false does not skip. |
| Bootstrap.ToggleSwitchesDemo | abilitiesexplorer.php:58-94 | `init` (`Bootstrap.Init`) with `load_demo_abilities`: after a successful toggle the next start-up loads the demo ability exactly when the previous one did not. |

## Left out

- JSON encoding and decoding (`json_decode`, `JSON.parse`, `JSON.stringify`, `formatJSON`) are library calls. Inputs are already-decoded values. A decoded `{}` becomes an empty PHP array (`Map([])`).
- Rendering is left out: the table's column callbacks and `extra_tablenav`, the admin pages, `showValidation`/`showResult`, clipboard and timers, and the jQuery wiring. It is presentation.
- Translation (`__()`), hooks, menus, asset enqueueing, `load_textdomain` and uninstall.php (a single option delete) have no decision logic.
- The `abilities_api_notice` debug text and its plugin scan are diagnostic output only.
- The demo ability's registration arguments and permission callback are declarations.
- Nonce checks and `current_user_can` are booleans given with the request.
- `get_option`/`update_option` are a map from option names to values. Option serialization is not modelled.
- A PHP key that looks numeric is turned into an integer key; JavaScript's `in` on an array sees indices and `length`. Both are ignored: a list has no named keys in either validator.
- ClientValidator.Lookup: only the `Object.prototype` names are inherited; a value of another prototype (a string's methods, an array's) is not modelled.
- AbilityTable.SortItems: `strcasecmp` gets the string form of its arguments, as the plugin does not declare strict types. The model converts integer and boolean providers. A float provider is read as "no key", because the model's floats have no string form. An array or object value raises a TypeError in PHP: an array-valued provider, `input_schema` or `raw_data` column. The model reads it as "no key" instead.
- AbilityTable.SortOrdersByKey: the order is proved only when every row has the sort column. Otherwise the comparator is not a preorder, and PHP's result depends on its sort algorithm.
- SiteHealth.ScoreIsNearestPercentage: the score is exact integer arithmetic with halves rounded up. PHP computes a float and `round()`s it, which can differ at a .5 boundary after floating-point division. The float type of the JSON value is not modelled either.
- Values.IsNumericString: `is_numeric` is reduced to an optional sign and a decimal numeral. Exponents, leading or trailing whitespace and hexadecimal forms are not covered.
- Bootstrap.CheckWpVersion: `version_compare` is modelled only for dotted decimal versions. Other strings give `None`. The special forms (`dev`, `alpha`, `pl`, `#`) and canonicalisation are not modelled.
- Bootstrap.StripPreRelease: PCRE's `.` and `$` treat a newline specially. Version strings are assumed to have no newline.
- An exception thrown by `wp_get_abilities`/`wp_get_ability` inside the handler's `try` block is not modelled; those calls are total functions of the registry.
- The 'Unknown error occurred.' fallback in `ajax_invoke_ability` cannot be reached, because every failure of `invoke_ability` carries an `error`.
- `get_pagenum()` is a parameter, the page number.
- A schema `type` is modelled as a string or a list of strings, and a property schema as a map of keys to values. A `type` of `true` matches `case 'string'` under PHP's loose `switch` (includes/class-ability-handler.php:256-257). A `null` property schema makes `propSchema.type` throw in the JavaScript validator (assets/js/admin.js:219-222). Neither case is modelled.
- A PHP `Error` (a TypeError or ValueError, say) thrown by an ability's callback is not an `Exception`. `invoke_ability` does not catch it, so it escapes `ajax_invoke_ability` and no JSON is sent. The model's `execute` outcomes are a return, a `WP_Error` or an `Exception`.

=== FILE: ability_table.dfy ===
/**
 `Ability_Explorer_Table::prepare_items` in includes/class-ability-table.php:
 the list screen's pipeline over the formatted abilities. A case-insensitive
 search, then an exact provider filter, then a stable `usort` by one column,
 then a window of 20 rows for the current page.
 */
module AbilityTable {
  import opened Values
  import opened Seqs
  import opened Sorting
  import opened Text
  import opened Handler

  const PerPage: nat := 20

  /** The request parameters; `None` when the parameter is absent. The page
      number is what `get_pagenum()` returned. */
  datatype Query = Query(search: Option<string>, provider: Option<string>,
                         orderby: Option<string>, order: Option<string>, page: int)

  /** What the table shows, and its pagination arguments. */
  datatype Page = Page(items: seq<Entry>, totalItems: nat, totalPages: nat)

  // ---------------------------------------------------------------------
  // Filters

  /** The search callback: the text occurs, ignoring ASCII case, in the
      name, the slug or the description. */
  function MatchesSearch(search: string): Entry -> bool
  {
    (e: Entry) => StrIPos(e.name, search).Some? || StrIPos(e.slug, search).Some? || StrIPos(e.description, search).Some?
  }

  function SearchFilter(entries: seq<Entry>, search: string): (r: seq<Entry>)
    ensures Subseq(r, entries)
    ensures EmptyString(search) ==> r == entries
  {
    FilterIsSubseq(entries, MatchesSearch(search));
    SubseqRefl(entries);
    if EmptyString(search) then entries else Filter(entries, MatchesSearch(search))
  }

  /** With a search text that PHP `empty()` does not reject, an ability is
      kept iff the text occurs in its name, slug or description, ignoring
      case. */
  lemma SearchKeepsExactlyMatches(entries: seq<Entry>, search: string, e: Entry)
    requires !EmptyString(search)
    ensures e in SearchFilter(entries, search)
        <==> e in entries && (ContainsCI(e.name, search) || ContainsCI(e.slug, search) || ContainsCI(e.description, search))
  {
    StrIPosFindsExactlyContainment(e.name, search);
    StrIPosFindsExactlyContainment(e.slug, search);
    StrIPosFindsExactlyContainment(e.description, search);
    var r := SearchFilter(entries, search);
    if e in r {
      var i :| 0 <= i < |r| && r[i] == e;
    }
    if e in entries && MatchesSearch(search)(e) {
      var i :| 0 <= i < |entries| && entries[i] == e;
    }
  }

  function ProviderFilter(entries: seq<Entry>, provider: string): (r: seq<Entry>)
    ensures Subseq(r, entries)
    ensures EmptyString(provider) || provider == "all" ==> r == entries
  {
    FilterIsSubseq(entries, HasProvider(provider));
    SubseqRefl(entries);
    if EmptyString(provider) || provider == "all" then entries else Filter(entries, HasProvider(provider))
  }

  /** A provider filter other than "", "0" and "all" keeps exactly the
      abilities whose provider is that very string, compared with case. */
  lemma ProviderFilterKeepsExactly(entries: seq<Entry>, provider: string, e: Entry)
    requires !EmptyString(provider) && provider != "all"
    ensures e in ProviderFilter(entries, provider) <==> e in entries && e.provider == Str(provider)
  {
    var r := ProviderFilter(entries, provider);
    if e in r {
      var i :| 0 <= i < |r| && r[i] == e;
    }
    if e in entries && e.provider == Str(provider) {
      var i :| 0 <= i < |entries| && entries[i] == e;
    }
  }

  // ---------------------------------------------------------------------
  // Sorting

  /** The string `strcasecmp` receives for a provider: PHP converts an
      integer or a boolean to a string, as the file does not declare strict
      types. Null is not `isset`; floats, arrays and objects give `None`. */
  function ProviderText(v: Value): Option<string>
  {
    match v
    case Str(s) => Some(s)
    case Int(i) => Some(IntToString(i))
    case Bool(b) => Some(if b then "1" else "")
    case _ => None
  }

  /** `$a[$orderby]` as `strcasecmp` reads it, when `isset`. The string
      columns are always set. */
  function SortKey(e: Entry, orderby: string): Option<string>
  {
    match orderby
    case "name" => Some(e.name)
    case "slug" => Some(e.slug)
    case "description" => Some(e.description)
    case "provider" => ProviderText(e.provider)
    case _ => None
  }

  /** A numeric provider sorts by its digits and a boolean one as "1" or "". */
  lemma ProviderTextExamples()
    ensures ProviderText(Int(5)) == Some("5")
    ensures ProviderText(Int(-12)) == Some("-12")
    ensures ProviderText(Bool(true)) == Some("1") && ProviderText(Bool(false)) == Some("")
    ensures ProviderText(List([Str("x")])) == None
  {
    assert NatToString(12) == NatToString(1) + [DigitChar(2)] == "12";
    assert IntToString(-12) == "-" + NatToString(12) == "-12";
    assert ProviderText(Int(-12)) == Some(IntToString(-12));
  }

  /** The `usort` callback. */
  function Compare(orderby: string, order: string): (Entry, Entry) -> int
  {
    (a: Entry, b: Entry) =>
      var r := if SortKey(a, orderby).Some? && SortKey(b, orderby).Some?
               then StrCaseCmp(SortKey(a, orderby).value, SortKey(b, orderby).value) else 0;
      if order == "asc" then r else -r
  }

  function SortItems(entries: seq<Entry>, orderby: string, order: string): (r: seq<Entry>)
    ensures multiset(r) == multiset(entries)
  {
    InsertionSort(entries, Compare(orderby, order))
  }

  predicate KeyedBy(entries: seq<Entry>, orderby: string)
  {
    forall i :: 0 <= i < |entries| ==> SortKey(entries[i], orderby).Some?
  }

  lemma ComparePreorder(orderby: string, order: string, dom: set<Entry>)
    requires forall e :: e in dom ==> SortKey(e, orderby).Some?
    ensures TotalPreorderOn(Compare(orderby, order), dom)
  {
    var cmp := Compare(orderby, order);
    forall a, b | a in dom && b in dom
      ensures cmp(a, b) <= 0 || cmp(b, a) <= 0
    {
      StrCaseCmpAntisymmetric(SortKey(a, orderby).value, SortKey(b, orderby).value);
    }
    forall a, b, c | a in dom && b in dom && c in dom && cmp(a, b) <= 0 && cmp(b, c) <= 0
      ensures cmp(a, c) <= 0
    {
      var ka, kb, kc := SortKey(a, orderby).value, SortKey(b, orderby).value, SortKey(c, orderby).value;
      if order == "asc" {
        StrCaseCmpTransitive(ka, kb, kc);
      } else {
        StrCaseCmpAntisymmetric(ka, kb);
        StrCaseCmpAntisymmetric(kb, kc);
        StrCaseCmpAntisymmetric(ka, kc);
        StrCaseCmpTransitive(kc, kb, ka);
      }
    }
  }

  /** When every row has the column, the rows come out in case-insensitive
      order of it: ascending for "asc", descending for any other order. */
  lemma SortOrdersByKey(entries: seq<Entry>, orderby: string, order: string)
    requires KeyedBy(entries, orderby)
    ensures var r := SortItems(entries, orderby, order);
      forall i, j :: 0 <= i < j < |r| ==>
        SortKey(r[i], orderby).Some? && SortKey(r[j], orderby).Some? &&
        (if order == "asc" then StrCaseCmp(SortKey(r[i], orderby).value, SortKey(r[j], orderby).value) <= 0
         else StrCaseCmp(SortKey(r[i], orderby).value, SortKey(r[j], orderby).value) >= 0)
  {
    var dom := set e | e in entries;
    forall e | e in dom
      ensures SortKey(e, orderby).Some?
    {
      var i :| 0 <= i < |entries| && entries[i] == e;
    }
    ComparePreorder(orderby, order, dom);
    InsertionSortSorted(entries, Compare(orderby, order), dom);
    var r := SortItems(entries, orderby, order);
    forall i | 0 <= i < |r|
      ensures SortKey(r[i], orderby).Some?
    {
      assert r[i] in multiset(entries);
    }
  }

  /** Two rows tie under the comparator exactly when their column values
      are equal ignoring case, in either sort direction. */
  lemma TieMeansSameKey(orderby: string, order: string, a: Entry, b: Entry)
    requires SortKey(a, orderby).Some? && SortKey(b, orderby).Some?
    ensures TiesWith(Compare(orderby, order), b)(a)
        <==> LowerStr(SortKey(a, orderby).value) == LowerStr(SortKey(b, orderby).value)
  {
    StrCaseCmpAntisymmetric(SortKey(a, orderby).value, SortKey(b, orderby).value);
  }

  /** `usort` is stable: rows whose column values are equal ignoring case
      (for instance "Apple" and "apple") keep their relative order. */
  lemma SortKeepsTiesInOrder(entries: seq<Entry>, orderby: string, order: string, k: Entry)
    requires KeyedBy(entries, orderby) && k in entries
    ensures Filter(SortItems(entries, orderby, order), TiesWith(Compare(orderby, order), k))
         == Filter(entries, TiesWith(Compare(orderby, order), k))
  {
    var dom := set e | e in entries;
    forall e | e in dom
      ensures SortKey(e, orderby).Some?
    {
      var i :| 0 <= i < |entries| && entries[i] == e;
    }
    ComparePreorder(orderby, order, dom);
    InsertionSortStable(entries, Compare(orderby, order), dom, k);
  }

  /** A column no row has (an unknown `orderby`) leaves the order as it was.
      The array-valued columns `input_schema`, `output_schema` and
      `raw_data` are excluded: every row has them, and `strcasecmp` on an
      array raises a TypeError instead of comparing. */
  lemma UnknownColumnKeepsOrder(entries: seq<Entry>, orderby: string, order: string)
    requires orderby !in {"name", "slug", "description", "provider", "input_schema", "output_schema", "raw_data"}
    ensures SortItems(entries, orderby, order) == entries
  {
    InsertionSortKeepsSorted(entries, Compare(orderby, order));
  }

  // ---------------------------------------------------------------------
  // Pagination

  /** Where PHP `array_slice($s, $offset, ...)` starts: a negative offset
      counts from the end. */
  function SliceStart(n: nat, offset: int): (start: nat)
    ensures start <= n
  {
    if offset >= 0 then (if offset <= n then offset else n)
    else if n + offset >= 0 then n + offset else 0
  }

  /** PHP `array_slice($s, $offset, $length)` for a non-negative length. */
  function ArraySlice<T>(s: seq<T>, offset: int, length: nat): (r: seq<T>)
    ensures |r| <= length
    ensures SliceStart(|s|, offset) + |r| <= |s|
    ensures r == s[SliceStart(|s|, offset)..SliceStart(|s|, offset) + |r|]
    ensures |r| == length || SliceStart(|s|, offset) + |r| == |s|
  {
    var start := SliceStart(|s|, offset);
    var end := if start + length <= |s| then start + length else |s|;
    s[start..end]
  }

  /** `ceil($total / $per_page)` for a positive page size. */
  function CeilDiv(n: nat, d: nat): (q: nat)
    requires d > 0
    ensures (q - 1) * d < n <= q * d || (n == 0 && q == 0)
  {
    (n + d - 1) / d
  }

  function Paginate(entries: seq<Entry>, page: int): (p: Page)
    ensures p.totalItems == |entries|
    ensures |p.items| <= PerPage
  {
    Page(ArraySlice(entries, (page - 1) * PerPage, PerPage), |entries|, CeilDiv(|entries|, PerPage))
  }

  /** The rows of page `page` (from 1) are the 20 abilities starting at
      position (page - 1) * 20, fewer on the last page, none after it. */
  lemma PageWindow(entries: seq<Entry>, page: int)
    requires page >= 1
    ensures var p := Paginate(entries, page);
      && (page <= p.totalPages ==> |p.items| > 0)
      && (page > p.totalPages ==> p.items == [])
      && forall i :: 0 <= i < |p.items| ==> (page - 1) * PerPage + i < |entries| && p.items[i] == entries[(page - 1) * PerPage + i]
  {
  }

  /** Every ability appears on exactly one page: the one numbered
      k / 20 + 1, at row k % 20. */
  lemma EveryRowOnItsPage(entries: seq<Entry>, k: nat)
    requires k < |entries|
    ensures var p := Paginate(entries, k / PerPage + 1);
      k % PerPage < |p.items| && p.items[k % PerPage] == entries[k]
  {
  }

  // ---------------------------------------------------------------------

  /** The search and provider filters, with the request's defaults. */
  function Filtered(entries: seq<Entry>, q: Query): seq<Entry>
  {
    var search := if q.search.Some? then q.search.value else "";
    var provider := if q.provider.Some? then q.provider.value else "";
    ProviderFilter(SearchFilter(entries, search), provider)
  }

  /** The sort column, "name" by default. */
  function OrderBy(q: Query): string
  {
    if q.orderby.Some? then q.orderby.value else "name"
  }

  /** The sort direction, "asc" by default. */
  function SortOrder(q: Query): string
  {
    if q.order.Some? then q.order.value else "asc"
  }

  /** `prepare_items()` over the formatted abilities. */
  function PrepareItems(entries: seq<Entry>, q: Query): Page
  {
    Paginate(SortItems(Filtered(entries, q), OrderBy(q), SortOrder(q)), q.page)
  }

  /** The filters keep a subsequence of the abilities, in their original
      order. */
  lemma FilteredIsSubseq(entries: seq<Entry>, q: Query)
    ensures Subseq(Filtered(entries, q), entries)
    ensures |Filtered(entries, q)| <= |entries|
    ensures multiset(Filtered(entries, q)) <= multiset(entries)
  {
    var search := if q.search.Some? then q.search.value else "";
    var found := SearchFilter(entries, search);
    var kept := Filtered(entries, q);
    SubseqTrans(kept, found, entries);
    SubseqLength(kept, entries);
    SubseqMultiset(kept, entries);
  }

  lemma PaginateDrawsFrom(sorted: seq<Entry>, page: int)
    ensures multiset(Paginate(sorted, page).items) <= multiset(sorted)
  {
    var p := Paginate(sorted, page);
    var start := SliceStart(|sorted|, (page - 1) * PerPage);
    SliceMultiset(sorted, start, start + |p.items|);
  }

  /** The pagination counts every ability that passed the filters, with
      ceil(n / 20) pages; the rows shown are drawn from the filtered
      abilities only; and page p shows the sorted filtered abilities from
      position (p - 1) * 20 on, in order. */
  lemma PrepareItemsShape(entries: seq<Entry>, q: Query)
    ensures PrepareItems(entries, q).totalItems == |Filtered(entries, q)| <= |entries|
    ensures PrepareItems(entries, q).totalPages == CeilDiv(|Filtered(entries, q)|, PerPage)
    ensures multiset(PrepareItems(entries, q).items) <= multiset(Filtered(entries, q))
    ensures multiset(PrepareItems(entries, q).items) <= multiset(entries)
    ensures q.page >= 1 ==>
      forall i :: 0 <= i < |PrepareItems(entries, q).items| ==>
        && (q.page - 1) * PerPage + i < |Filtered(entries, q)|
        && PrepareItems(entries, q).items[i] == SortItems(Filtered(entries, q), OrderBy(q), SortOrder(q))[(q.page - 1) * PerPage + i]
  {
    var kept := Filtered(entries, q);
    FilteredIsSubseq(entries, q);
    var sorted := SortItems(kept, OrderBy(q), SortOrder(q));
    PaginateDrawsFrom(sorted, q.page);
    if q.page >= 1 {
      PageWindow(sorted, q.page);
    }
    assert PrepareItems(entries, q) == Paginate(sorted, q.page);
  }

  /** With no search, no provider filter, the default order and page 1, the
      first 20 abilities are shown in ascending case-insensitive name order,
      and the pagination counts them all. */
  lemma DefaultView(entries: seq<Entry>)
    ensures var p := PrepareItems(entries, Query(None, None, None, None, 1));
      && p.totalItems == |entries|
      && p.totalPages == CeilDiv(|entries|, PerPage)
      && p.items == SortItems(entries, "name", "asc")[..|p.items|]
      && forall i, j :: 0 <= i < j < |p.items| ==> StrCaseCmp(p.items[i].name, p.items[j].name) <= 0
  {
    var q := Query(None, None, None, None, 1);
    NoQueryKeepsAll(entries);
    var sorted := SortItems(entries, "name", "asc");
    SortOrdersByKey(entries, "name", "asc");
    assert PrepareItems(entries, q) == Paginate(sorted, 1);
  }

  lemma NoQueryKeepsAll(entries: seq<Entry>)
    ensures Filtered(entries, Query(None, None, None, None, 1)) == entries
  {
    assert EmptyString("");
  }
}

=== FILE: admin_ajax.dfy ===
/**
 The decision logic of the two AJAX endpoints in admin/class-admin-page.php:
 `ajax_invoke_ability`, which gates an invocation behind the nonce, the
 capability, the slug, the registry and the server-side validator, and
 `ajax_toggle_demo_ability`, which flips one stored flag.

 `wp_send_json_error`, `wp_send_json_success` and a failed
 `check_ajax_referer` all end the request, so each handler returns exactly
 one response. The nonce check and `current_user_can('manage_options')` are
 booleans given with the request; the option store is a map.
 */
module AdminAjax {
  import opened Values
  import opened Schemas
  import Validator
  import opened Handler

  /** What the endpoint sends: nothing but the refusal of a failed nonce
      check, or a JSON error or success envelope around `body`. */
  datatype Response = Died | JsonError(body: Value) | JsonSuccess(body: Value)

  function MessageBody(message: string): Value
  {
    Map([("message", Str(message))])
  }

  function Strings(items: seq<string>): (v: Value)
    ensures v.List? && |v.items| == |items|
    ensures forall i :: 0 <= i < |items| ==> v.items[i] == Str(items[i])
  {
    List(seq(|items|, i requires 0 <= i < |items| => Str(items[i])))
  }

  // ---------------------------------------------------------------------
  // ajax_invoke_ability

  /** The request: whether the nonce verifies, whether the user may manage
      options, the sanitized `ability` field (empty when absent) and the
      decoded `input` field (an empty array when absent). */
  datatype InvokeRequest = InvokeRequest(nonceValid: bool, canManage: bool, slug: string, input: Value)

  /** The response, and the call made to `execute`, if any. */
  datatype InvokeReply = InvokeReply(call: Option<Call>, response: Response)

  /** The envelope for a result of `invoke_ability`. Every failure carries
      an `error`, so the 'Unknown error occurred.' fallback is never used; a
      `WP_Error`'s code and data are dropped. */
  function ResultResponse(result: InvokeResult): Response
  {
    match result
    case Succeeded(data) => JsonSuccess(Map([("message", Str("Ability invoked successfully.")), ("data", data)]))
    case Failed(error, details) =>
      JsonError(Map([("message", Str(error)), ("trace", if details.Trace? then Str(details.trace) else Null)]))
  }

  /** `ajax_invoke_ability()`. */
  function AjaxInvoke(req: InvokeRequest, api: bool, registry: seq<Ability>, theme: Theme,
                      execute: Call -> ExecOutcome): (r: InvokeReply)
    ensures !req.nonceValid ==> r == InvokeReply(None, Died)
    ensures r.response.JsonSuccess? ==> r.call.Some?
  {
    if !req.nonceValid then InvokeReply(None, Died)
    else if !req.canManage then InvokeReply(None, JsonError(MessageBody("Insufficient permissions.")))
    else if EmptyString(req.slug) then InvokeReply(None, JsonError(MessageBody("Ability slug is required.")))
    else
      match GetAbility(api, registry, req.slug, theme)
      case None => InvokeReply(None, JsonError(MessageBody("Ability not found.")))
      case Some(entry) =>
        var validation := Validator.ValidateInput(entry.inputSchema, req.input);
        if !IsEmpty(entry.inputSchema) && !validation.valid then
          InvokeReply(None, JsonError(Map([("message", Str("Input validation failed.")), ("errors", Strings(validation.errors))])))
        else
          var inv := InvokeAbility(api, registry, req.slug, req.input, execute);
          InvokeReply(inv.call, ResultResponse(inv.result))
  }

  /** The gate: `execute` is called iff the nonce verifies, the user is
      allowed, the slug is non-empty, the ability is registered, and the
      input passes the server-side validator (or the schema is empty);
      and then it is called on that very ability. */
  lemma InvokeGate(req: InvokeRequest, api: bool, registry: seq<Ability>, theme: Theme,
                   execute: Call -> ExecOutcome)
    ensures var r := AjaxInvoke(req, api, registry, theme, execute);
      r.call.Some? <==>
        && req.nonceValid && req.canManage && !EmptyString(req.slug)
        && api && Find(registry, req.slug).Some?
        && Validator.ValidateInput(Find(registry, req.slug).value.inputSchema, req.input).valid
    ensures var r := AjaxInvoke(req, api, registry, theme, execute);
      r.call.Some? ==> r.call.value.ability == Find(registry, req.slug).value
  {
    if api && Find(registry, req.slug).Some? {
      var schema := Find(registry, req.slug).value.inputSchema;
      assert GetAbility(api, registry, req.slug, theme).value.inputSchema == schema;
    }
  }

  /** Invalid input is answered with the validator's own error list, in its
      order, and nothing is invoked. */
  lemma ValidationFailureReported(req: InvokeRequest, api: bool, registry: seq<Ability>, theme: Theme,
                                  execute: Call -> ExecOutcome)
    requires req.nonceValid && req.canManage && !EmptyString(req.slug)
    requires api && Find(registry, req.slug).Some?
    requires !Validator.ValidateInput(Find(registry, req.slug).value.inputSchema, req.input).valid
    ensures AjaxInvoke(req, api, registry, theme, execute)
         == InvokeReply(None, JsonError(Map([("message", Str("Input validation failed.")),
                                             ("errors", Strings(Validator.ValidateInput(Find(registry, req.slug).value.inputSchema, req.input).errors))])))
  {
    assert GetAbility(api, registry, req.slug, theme).value.inputSchema == Find(registry, req.slug).value.inputSchema;
  }

  /** The response to an invocation passes on its outcome: success with the
      returned data, or the error message, with the trace of an exception. */
  lemma InvokeResponseFollowsOutcome(req: InvokeRequest, api: bool, registry: seq<Ability>, theme: Theme,
                                     execute: Call -> ExecOutcome)
    ensures var r := AjaxInvoke(req, api, registry, theme, execute);
      r.call.Some? ==>
        match execute(r.call.value)
        case Returned(v) => r.response == JsonSuccess(Map([("message", Str("Ability invoked successfully.")), ("data", v)]))
        case WpError(m, _, _) => r.response == JsonError(Map([("message", Str(m)), ("trace", Null)]))
        case Raised(m, t) => r.response == JsonError(Map([("message", Str(m)), ("trace", Str(t))]))
  {
    InvokeReportsOutcome(api, registry, req.slug, req.input, execute);
  }

  /** PHP `empty()` rejects the slug "0" as well as "". */
  lemma ZeroSlugRejected(req: InvokeRequest, api: bool, registry: seq<Ability>, theme: Theme,
                         execute: Call -> ExecOutcome)
    requires req.nonceValid && req.canManage && req.slug == "0"
    ensures AjaxInvoke(req, api, registry, theme, execute) == InvokeReply(None, JsonError(MessageBody("Ability slug is required.")))
  {
  }

  // ---------------------------------------------------------------------
  // ajax_toggle_demo_ability

  /** The option behind the only toggleable demo ability, "site-health". */
  const SiteHealthOption := "ability_explorer_demo_site_health"

  datatype ToggleRequest = ToggleRequest(key: string, nonceValid: bool, canManage: bool)

  datatype ToggleReply = ToggleReply(store: map<string, Value>, response: Response)

  /** `get_option($name, false)`. */
  function GetOption(store: map<string, Value>, name: string): Value
  {
    if name in store then store[name] else Bool(false)
  }

  /** `ajax_toggle_demo_ability()`. Unlike the invoke endpoint, an empty key
      is refused before the nonce is checked. */
  function AjaxToggle(req: ToggleRequest, store: map<string, Value>): (r: ToggleReply)
    ensures !r.response.JsonSuccess? ==> r.store == store
    ensures forall k :: k != SiteHealthOption ==> (k in r.store <==> k in store)
    ensures forall k :: k != SiteHealthOption && k in store ==> r.store[k] == store[k]
    ensures r.response.JsonSuccess? <==> !EmptyString(req.key) && req.nonceValid && req.canManage && req.key == "site-health"
  {
    if EmptyString(req.key) then ToggleReply(store, JsonError(MessageBody("Invalid ability.")))
    else if !req.nonceValid then ToggleReply(store, Died)
    else if !req.canManage then ToggleReply(store, JsonError(MessageBody("Insufficient permissions.")))
    else if req.key != "site-health" then ToggleReply(store, JsonError(MessageBody("Unknown ability.")))
    else
      var enabled := !Truthy(GetOption(store, SiteHealthOption));
      var message := if enabled then "Ability enabled. Check the Explorer to see it." else "Ability disabled.";
      ToggleReply(store[SiteHealthOption := Bool(enabled)], JsonSuccess(Map([("enabled", Bool(enabled)), ("message", Str(message))])))
  }

  /** A successful toggle stores the negation of the stored flag (false
      when unset) and reports it. */
  lemma ToggleNegates(req: ToggleRequest, store: map<string, Value>)
    requires AjaxToggle(req, store).response.JsonSuccess?
    ensures var r := AjaxToggle(req, store);
      && r.store[SiteHealthOption] == Bool(!Truthy(GetOption(store, SiteHealthOption)))
      && Get(r.response.body, "enabled") == Some(r.store[SiteHealthOption])
  {
  }

  /** Toggling twice restores the flag's truth value, and restores the
      store exactly when the flag was stored as a boolean. */
  lemma ToggleTwice(req: ToggleRequest, store: map<string, Value>)
    requires AjaxToggle(req, store).response.JsonSuccess?
    ensures var twice := AjaxToggle(req, AjaxToggle(req, store).store);
      && twice.response.JsonSuccess?
      && Truthy(GetOption(twice.store, SiteHealthOption)) == Truthy(GetOption(store, SiteHealthOption))
      && (SiteHealthOption in store && store[SiteHealthOption].Bool? ==> twice.store == store)
  {
    var once := AjaxToggle(req, store).store;
    var twice := AjaxToggle(req, once).store;
    if SiteHealthOption in store && store[SiteHealthOption].Bool? {
      assert twice.Keys == store.Keys;
    }
  }
}

=== FILE: bootstrap.dfy ===
/**
 The plugin's start-up gate (abilitiesexplorer.php): `check_wp_version`,
 which strips a pre-release suffix and compares the rest with the minimum
 version 6.9; `check_abilities_api`, which looks for the Abilities API; and
 `init`, which stops at the first failed check and otherwise loads the
 Site Health demo ability when its option is set.

 `version_compare` is modelled for dotted decimal versions only; a version
 string of any other shape gives `None`.
 */
module Bootstrap {
  import opened Values
  import opened Text
  import opened Seqs
  import AdminAjax

  // ---------------------------------------------------------------------
  // Stripping the pre-release suffix

  /** `v[i..]` starts the pattern `-(?:beta|rc|alpha)`, ignoring case. */
  predicate MarkerAt(v: string, i: int)
  {
    && 0 <= i < |v|
    && v[i] == '-'
    && (StartsWithCI(v[i + 1..], "beta") || StartsWithCI(v[i + 1..], "rc") || StartsWithCI(v[i + 1..], "alpha"))
  }

  /** Markers in `v[1..]` are the markers of `v` shifted by one. */
  lemma MarkerShift(v: string)
    requires |v| > 0
    ensures forall j :: 1 <= j < |v| ==> (MarkerAt(v, j) <==> MarkerAt(v[1..], j - 1))
  {
    forall j | 1 <= j < |v|
      ensures MarkerAt(v, j) <==> MarkerAt(v[1..], j - 1)
    {
      assert v[1..][j..] == v[j + 1..];
    }
  }

  /** `preg_replace('/-(?:beta|rc|alpha).*$/i', '', $v)`: everything from the
      first marker on is removed. The result is the longest prefix holding
      no marker, and it is cut exactly where the first marker starts. */
  function StripPreRelease(v: string): (r: string)
    ensures |r| <= |v| && r == v[..|r|]
    ensures |r| < |v| ==> MarkerAt(v, |r|)
    ensures forall j :: 0 <= j < |r| ==> !MarkerAt(v, j)
  {
    if |v| == 0 || MarkerAt(v, 0) then ""
    else
      MarkerShift(v);
      [v[0]] + StripPreRelease(v[1..])
  }

  /** A string without a marker is left as it is. */
  lemma NoMarkerUnchanged(v: string)
    requires forall j :: 0 <= j < |v| ==> !MarkerAt(v, j)
    ensures StripPreRelease(v) == v
  {
  }

  /** A case-insensitive match of `p` in a prefix of `s` is one in `s`. */
  lemma StartsWithExtends(s: string, t: string, p: string)
    requires StartsWithCI(s, p)
    ensures StartsWithCI(s + t, p)
  {
    assert (s + t)[..|p|] == s[..|p|];
  }

  /** A marker of a prefix of `v` is a marker of `v`. */
  lemma MarkerInPrefix(v: string, k: nat, j: int)
    requires k <= |v| && MarkerAt(v[..k], j)
    ensures MarkerAt(v, j)
  {
    assert v[j + 1..] == v[..k][j + 1..] + v[k..];
    if StartsWithCI(v[..k][j + 1..], "beta") {
      StartsWithExtends(v[..k][j + 1..], v[k..], "beta");
    } else if StartsWithCI(v[..k][j + 1..], "rc") {
      StartsWithExtends(v[..k][j + 1..], v[k..], "rc");
    } else {
      StartsWithExtends(v[..k][j + 1..], v[k..], "alpha");
    }
  }

  /** Stripping twice strips nothing more. */
  lemma StripIdempotent(v: string)
    ensures StripPreRelease(StripPreRelease(v)) == StripPreRelease(v)
  {
    var r := StripPreRelease(v);
    forall j | 0 <= j < |r|
      ensures !MarkerAt(r, j)
    {
      if MarkerAt(r, j) {
        MarkerInPrefix(v, |r|, j);
      }
    }
    NoMarkerUnchanged(r);
  }

  /** Each character of a case-insensitive match agrees up to case. */
  lemma MatchAt(s: string, p: string, k: int)
    requires StartsWithCI(s, p) && 0 <= k < |p|
    ensures Lower(s[k]) == Lower(p[k])
  {
    assert LowerStr(s[..|p|])[k] == LowerStr(p)[k];
  }

  /** A lower-case keyword cannot match across a '-': a match in `base +
      rest`, where `rest` starts with '-', lies inside `base`. */
  lemma MatchStopsAtDash(base: string, rest: string, kw: string)
    requires |rest| > 0 && rest[0] == '-'
    requires forall k :: 0 <= k < |kw| ==> 'a' <= kw[k] <= 'z'
    requires StartsWithCI(base + rest, kw)
    ensures StartsWithCI(base, kw)
  {
    if |kw| > |base| {
      MatchAt(base + rest, kw, |base|);
      assert false;
    } else {
      assert (base + rest)[..|kw|] == base[..|kw|];
    }
  }

  /** A marker of `base + suffix` before the suffix is a marker of `base`,
      when the suffix starts with '-'. */
  lemma MarkerInBase(base: string, suffix: string, j: int)
    requires |suffix| > 0 && suffix[0] == '-'
    requires 0 <= j < |base| && MarkerAt(base + suffix, j)
    ensures MarkerAt(base, j)
  {
    var v := base + suffix;
    assert v[j + 1..] == base[j + 1..] + suffix;
    if StartsWithCI(v[j + 1..], "beta") {
      MatchStopsAtDash(base[j + 1..], suffix, "beta");
    } else if StartsWithCI(v[j + 1..], "rc") {
      MatchStopsAtDash(base[j + 1..], suffix, "rc");
    } else {
      MatchStopsAtDash(base[j + 1..], suffix, "alpha");
    }
  }

  /** A release followed by a pre-release suffix strips to the release:
      "6.9-beta1" and "6.9-RC1" both strip to "6.9". */
  lemma StripMarkedSuffix(base: string, suffix: string)
    requires forall j :: 0 <= j < |base| ==> !MarkerAt(base, j)
    requires MarkerAt(suffix, 0)
    ensures StripPreRelease(base + suffix) == base
  {
    var v := base + suffix;
    var r := StripPreRelease(v);
    assert v[|base|..] == suffix;
    assert v[|base| + 1..] == suffix[1..];
    assert MarkerAt(v, |base|);
    if |r| < |base| {
      MarkerInBase(base, suffix, |r|);
      assert false;
    }
    assert v[..|base|] == base;
  }

  // ---------------------------------------------------------------------
  // Dotted decimal versions

  /** The length of the run of digits `s` starts with. */
  function LeadingDigits(s: string): (k: nat)
    ensures k <= |s| && AllDigits(s[..k])
    ensures k < |s| ==> !IsDigit(s[k])
  {
    if |s| == 0 || !IsDigit(s[0]) then 0
    else
      var k := LeadingDigits(s[1..]);
      assert s[..k + 1] == [s[0]] + s[1..][..k];
      k + 1
  }

  /** The components of a version "6.10.2", or `None` when the string is not
      dot-separated runs of digits. */
  function ParseVersion(s: string): (r: Option<seq<nat>>)
    ensures r.Some? ==> |r.value| >= 1
    decreases |s|
  {
    var k := LeadingDigits(s);
    if k == 0 then None
    else if k == |s| then Some([DigitsValue(s)])
    else if s[k] != '.' then None
    else
      match ParseVersion(s[k + 1..])
      case None => None
      case Some(rest) => Some([DigitsValue(s[..k])] + rest)
  }

  /** The version string of a list of components. */
  function Render(parts: seq<nat>): string
    requires |parts| >= 1
  {
    if |parts| == 1 then NatToString(parts[0])
    else NatToString(parts[0]) + "." + Render(parts[1..])
  }

  lemma {:induction false} LeadingDigitsOf(d: string, t: string)
    requires AllDigits(d)
    requires |t| > 0 ==> !IsDigit(t[0])
    ensures LeadingDigits(d + t) == |d|
    decreases |d|
  {
    if |d| > 0 {
      assert (d + t)[1..] == d[1..] + t;
      LeadingDigitsOf(d[1..], t);
    } else {
      assert d + t == t;
    }
  }

  /** Parsing a rendered version gives back its components. */
  lemma {:induction false} ParseRender(parts: seq<nat>)
    requires |parts| >= 1
    ensures ParseVersion(Render(parts)) == Some(parts)
  {
    var head := NatToString(parts[0]);
    NatRoundTrip(parts[0]);
    if |parts| == 1 {
      assert head + "" == head;
      LeadingDigitsOf(head, "");
      assert LeadingDigits(head) == |head|;
      assert ParseVersion(head) == Some([DigitsValue(head)]);
      assert parts == [parts[0]];
    } else {
      var s := Render(parts);
      var tail := "." + Render(parts[1..]);
      assert s == head + tail;
      LeadingDigitsOf(head, tail);
      assert s[..|head|] == head;
      assert s[|head| + 1..] == Render(parts[1..]);
      ParseRender(parts[1..]);
      assert parts == [parts[0]] + parts[1..];
    }
  }

  /** `version_compare($a, $b)` on dotted decimal versions: component by
      component, numerically, and a version below any of its extensions
      ("6.9" < "6.9.0"). */
  function CompareVersions(a: seq<nat>, b: seq<nat>): (r: int)
    ensures -1 <= r <= 1
    ensures r == 0 <==> a == b
  {
    if |a| == 0 && |b| == 0 then 0
    else if |a| == 0 then -1
    else if |b| == 0 then 1
    else if a[0] < b[0] then -1
    else if a[0] > b[0] then 1
    else
      var r := CompareVersions(a[1..], b[1..]);
      assert a == [a[0]] + a[1..] && b == [b[0]] + b[1..];
      r
  }

  lemma {:induction false} CompareAntisymmetric(a: seq<nat>, b: seq<nat>)
    ensures CompareVersions(a, b) == -CompareVersions(b, a)
  {
    if |a| > 0 && |b| > 0 && a[0] == b[0] {
      CompareAntisymmetric(a[1..], b[1..]);
    }
  }

  lemma {:induction false} CompareTransitive(a: seq<nat>, b: seq<nat>, c: seq<nat>)
    requires CompareVersions(a, b) <= 0 && CompareVersions(b, c) <= 0
    ensures CompareVersions(a, c) <= 0
  {
    if |a| > 0 && |b| > 0 && |c| > 0 && a[0] == b[0] == c[0] {
      CompareTransitive(a[1..], b[1..], c[1..]);
    }
  }

  predicate NatBelow(x: nat, y: nat)
  {
    x < y
  }

  /** `version_compare` says "lower" exactly in lexicographic order. */
  lemma {:induction false} CompareIsLexicographic(a: seq<nat>, b: seq<nat>)
    ensures CompareVersions(a, b) < 0 <==> LexLess(a, b, NatBelow)
  {
    if |a| == 0 {
      if |b| > 0 {
        assert a == b[..0];
      }
    } else if |b| > 0 {
      LexLessStep(a, b, NatBelow);
      if a[0] == b[0] {
        CompareIsLexicographic(a[1..], b[1..]);
      }
    }
  }

  /** `ABILITY_EXPLORER_MIN_WP_VERSION`. */
  const MinWpVersion: seq<nat> := [6, 9]

  /** `check_wp_version()`, or `None` when the stripped version is not a
      dotted decimal version. */
  function CheckWpVersion(wpVersion: string): (r: Option<bool>)
    ensures r.Some? <==> ParseVersion(StripPreRelease(wpVersion)).Some?
  {
    match ParseVersion(StripPreRelease(wpVersion))
    case None => None
    case Some(parts) => Some(CompareVersions(parts, MinWpVersion) >= 0)
  }

  /** A rendered release passes exactly when it is 6.9 or above in
      lexicographic order. */
  lemma ReleaseCheck(parts: seq<nat>)
    requires |parts| >= 1
    requires forall j :: 0 <= j < |Render(parts)| ==> !MarkerAt(Render(parts), j)
    ensures CheckWpVersion(Render(parts)) == Some(!LexLess(parts, MinWpVersion, NatBelow))
  {
    NoMarkerUnchanged(Render(parts));
    ParseRender(parts);
    CompareIsLexicographic(parts, MinWpVersion);
  }

  /** A pre-release is judged as the release it precedes. */
  lemma PreReleaseJudgedAsRelease(base: string, suffix: string)
    requires forall j :: 0 <= j < |base| ==> !MarkerAt(base, j)
    requires MarkerAt(suffix, 0)
    ensures CheckWpVersion(base + suffix) == CheckWpVersion(base)
  {
    StripMarkedSuffix(base, suffix);
    NoMarkerUnchanged(base);
  }

  lemma NoDash(s: string)
    requires forall j :: 0 <= j < |s| ==> s[j] != '-'
    ensures forall j :: 0 <= j < |s| ==> !MarkerAt(s, j)
  {
  }

  /** 6.9 itself passes. */
  lemma MinimumPasses()
    ensures CheckWpVersion("6.9") == Some(true)
  {
    assert Render([6, 9]) == "6.9";
    NoDash("6.9");
    ReleaseCheck([6, 9]);
  }

  /** A suffix '-' followed by a keyword in any case is a marker. */
  lemma SuffixMarker(suffix: string, kw: string)
    requires kw in {"beta", "rc", "alpha"}
    requires |suffix| > |kw| && suffix[0] == '-' && LowerStr(suffix[1..|kw| + 1]) == kw
    ensures MarkerAt(suffix, 0)
  {
    assert suffix[1..][..|kw|] == suffix[1..|kw| + 1];
    assert LowerStr(kw) == kw;
  }

  lemma PreReleaseStrips(suffix: string, kw: string)
    requires kw in {"beta", "rc", "alpha"}
    requires |suffix| > |kw| && suffix[0] == '-' && LowerStr(suffix[1..|kw| + 1]) == kw
    ensures StripPreRelease("6.9" + suffix) == "6.9"
  {
    NoDash("6.9");
    SuffixMarker(suffix, kw);
    StripMarkedSuffix("6.9", suffix);
  }

  lemma PassesAsMinimum(v: string)
    requires StripPreRelease(v) == "6.9"
    ensures CheckWpVersion(v) == Some(true)
  {
    MinimumPasses();
    NoDash("6.9");
    NoMarkerUnchanged("6.9");
  }

  /** 6.9-beta1 passes as 6.9 does. */
  lemma BetaPasses()
    ensures CheckWpVersion("6.9-beta1") == Some(true)
  {
    PreReleaseStrips("-beta1", "beta");
    assert "6.9" + "-beta1" == "6.9-beta1";
    PassesAsMinimum("6.9-beta1");
  }

  /** 6.9-RC1 passes as 6.9 does; the marker's case does not matter. */
  lemma ReleaseCandidatePasses()
    ensures CheckWpVersion("6.9-RC1") == Some(true)
  {
    PreReleaseStrips("-RC1", "rc");
    assert "6.9" + "-RC1" == "6.9-RC1";
    PassesAsMinimum("6.9-RC1");
  }

  /** 6.10 passes, as components compare as numbers. */
  lemma NumericComponentsPass()
    ensures CheckWpVersion("6.10") == Some(true)
  {
    assert Render([6, 10]) == "6.10";
    NoDash("6.10");
    ReleaseCheck([6, 10]);
  }

  /** 6.8.3 fails. */
  lemma OlderReleaseFails()
    ensures CheckWpVersion("6.8.3") == Some(false)
  {
    assert Render([6, 8, 3]) == "6.8.3";
    NoDash("6.8.3");
    ReleaseCheck([6, 8, 3]);
    assert [6, 8, 3][..1] == [6, 9][..1];
  }

  // ---------------------------------------------------------------------
  // The Abilities API check and start-up

  /** `check_abilities_api()`: the skip constant (`None` when not defined)
      counts when its value is truthy; otherwise the `WP_Ability` class, or
      both `wp_get_abilities` and `wp_register_ability`, must exist. */
  function CheckAbilitiesApi(skip: Option<Value>, abilityClass: bool, getAbilities: bool, registerAbility: bool): bool
  {
    if skip.Some? && Truthy(skip.value) then true
    else if abilityClass then true
    else getAbilities && registerAbility
  }

  /** Making more of the API available never fails the check. */
  lemma ApiCheckMonotone(skip: Option<Value>, c1: bool, g1: bool, r1: bool, c2: bool, g2: bool, r2: bool)
    requires (c1 ==> c2) && (g1 ==> g2) && (r1 ==> r2)
    ensures CheckAbilitiesApi(skip, c1, g1, r1) ==> CheckAbilitiesApi(skip, c2, g2, r2)
  {
  }

  /** Without the skip constant and the class, one of the two functions is
      not enough; a skip constant defined as "0" or false does not skip. */
  lemma ApiCheckNeedsBothFunctions(abilityClass: bool)
    ensures !CheckAbilitiesApi(None, false, true, false)
    ensures !CheckAbilitiesApi(None, false, false, true)
    ensures CheckAbilitiesApi(Some(Str("0")), abilityClass, false, false) == abilityClass
    ensures CheckAbilitiesApi(Some(Bool(false)), abilityClass, false, false) == abilityClass
  {
  }

  /** What `init()` leads to: a notice for the first failed check, or the
      running plugin, with the Site Health demo ability loaded or not. */
  datatype Startup = VersionNotice | ApiNotice | Running(siteHealthDemo: bool)

  /** `init()`; the option store is the one the toggle endpoint writes. */
  function Init(versionOk: bool, apiOk: bool, store: map<string, Value>): Startup
  {
    if !versionOk then VersionNotice
    else if !apiOk then ApiNotice
    else Running(Truthy(AdminAjax.GetOption(store, AdminAjax.SiteHealthOption)))
  }

  /** After a successful toggle the next start-up loads the demo ability
      exactly when the previous one did not, and the toggle's reply says
      which. */
  lemma ToggleSwitchesDemo(req: AdminAjax.ToggleRequest, store: map<string, Value>)
    requires AdminAjax.AjaxToggle(req, store).response.JsonSuccess?
    ensures var after := AdminAjax.AjaxToggle(req, store);
      && Init(true, true, after.store).siteHealthDemo == !Init(true, true, store).siteHealthDemo
      && Get(after.response.body, "enabled") == Some(Bool(Init(true, true, after.store).siteHealthDemo))
  {
    AdminAjax.ToggleNegates(req, store);
  }
}

=== FILE: client_validator.dfy ===
/**
 The browser-side pre-submit check in assets/js/admin.js,
 `validateAgainstSchema` with `validateType`. It produces the same messages
 as the server but decides by JavaScript's rules:
 - a field is present when `name in input` holds, which includes a key whose
   value is null and the names every object inherits from Object.prototype;
 - `in` on a primitive (null, boolean, number, string) throws a TypeError;
 - `number`/`integer` accept only JS numbers, never numeric strings;
 - `object` accepts any non-array whose `typeof` is "object", null included;
 - properties are visited in `Object.keys` order, which lists array-index
   names first, in ascending numeric order.
 There is no empty-schema shortcut: an empty schema simply has nothing to check.
 */
module ClientValidator {
  import opened Values
  import opened Schemas
  import opened Seqs
  import opened Sorting
  import opened Messages
  import Validator

  /** The property names an ordinary object inherits from Object.prototype. */
  const ObjectPrototypeNames: set<string> := {
    "constructor", "hasOwnProperty", "isPrototypeOf", "propertyIsEnumerable",
    "toLocaleString", "toString", "valueOf", "__proto__",
    "__defineGetter__", "__defineSetter__", "__lookupGetter__", "__lookupSetter__"
  }

  /** What `input[name]` reads: an own property, an inherited member of
      Object.prototype (a method, or the prototype object itself for
      `__proto__`), or nothing. */
  datatype Slot = Absent | Own(v: Value) | Inherited(name: string)

  /** The values on which `in` throws a TypeError. */
  predicate IsPrimitive(v: Value)
  {
    v.Null? || v.Bool? || v.Int? || v.Float? || v.Str?
  }

  /** Property lookup on an object input. Arrays are treated as having no
      keys. */
  function Lookup(input: Value, name: string): (s: Slot)
    ensures s.Own? <==> Get(input, name).Some?
  {
    match Get(input, name)
    case Some(v) => Own(v)
    case None =>
      if (input.Map? || input.EmptyObject?) && name in ObjectPrototypeNames then Inherited(name) else Absent
  }

  /** `name in input` for a non-primitive input. */
  predicate In(input: Value, name: string)
  {
    !Lookup(input, name).Absent?
  }

  /** JavaScript's `typeof`. */
  function TypeOf(s: Slot): string
  {
    match s
    case Absent => "undefined"
    case Inherited(name) => if name == "__proto__" then "object" else "function"
    case Own(v) =>
      match v
      case Null => "object"
      case Bool(_) => "boolean"
      case Int(_) => "number"
      case Float(_, _) => "number"
      case Str(_) => "string"
      case _ => "object"
  }

  predicate IsJsArray(s: Slot)
  {
    s.Own? && s.v.List?
  }

  /** `validateType(value, expectedType)`. */
  predicate ValidateType(s: Slot, typeName: string)
  {
    match typeName
    case "string" => TypeOf(s) == "string"
    case "number" => TypeOf(s) == "number"
    case "integer" => TypeOf(s) == "number"
    case "boolean" => TypeOf(s) == "boolean"
    case "array" => IsJsArray(s)
    case "object" => TypeOf(s) == "object" && !IsJsArray(s)
    case _ => true
  }

  // ---------------------------------------------------------------------
  // Object.keys order

  /** A property name that is an array index: a canonical decimal numeral
      below 2^32 - 1. */
  predicate IsArrayIndex(name: string)
  {
    && |name| > 0
    && AllDigits(name)
    && (name[0] != '0' || |name| == 1)
    && DigitsValue(name) < 0xFFFF_FFFF
  }

  /** Orders array-index names numerically and treats every other pair as equal. */
  function IndexOrder(): ((string, Schema), (string, Schema)) -> int
  {
    (a: (string, Schema), b: (string, Schema)) =>
      if IsArrayIndex(a.0) && IsArrayIndex(b.0) then DigitsValue(a.0) - DigitsValue(b.0) else 0
  }

  function IndexEntry(): ((string, Schema)) -> bool
  {
    (p: (string, Schema)) => IsArrayIndex(p.0)
  }

  function OtherEntry(): ((string, Schema)) -> bool
  {
    (p: (string, Schema)) => !IsArrayIndex(p.0)
  }

  /** The properties in `Object.keys(schema.properties)` order: array-index
      names ascending, then every other name in declaration order. */
  function KeyOrder(props: seq<(string, Schema)>): seq<(string, Schema)>
  {
    InsertionSort(Filter(props, IndexEntry()), IndexOrder()) + Filter(props, OtherEntry())
  }

  /** `Object.keys` lists every property exactly once: a permutation of
      the declaration order. */
  lemma KeyOrderPermutes(props: seq<(string, Schema)>)
    ensures multiset(KeyOrder(props)) == multiset(props)
  {
    FilterPartition(props, IndexEntry(), OtherEntry());
  }

  /** When no property name is an array index, `Object.keys` follows
      declaration order. */
  lemma KeyOrderIsDeclarationOrder(props: seq<(string, Schema)>)
    requires forall i :: 0 <= i < |props| ==> !IsArrayIndex(props[i].0)
    ensures KeyOrder(props) == props
  {
    FilterNone(props, IndexEntry());
    FilterKeepsAll(props, OtherEntry());
  }

  /** The sorted index part holds array-index names only, in order. */
  lemma IndexPartSorted(props: seq<(string, Schema)>)
    ensures var sorted := InsertionSort(Filter(props, IndexEntry()), IndexOrder());
      && (forall p :: p in sorted ==> IsArrayIndex(p.0))
      && Sorted(sorted, IndexOrder())
  {
    var indices := Filter(props, IndexEntry());
    var dom := set p | p in indices;
    var sorted := InsertionSort(indices, IndexOrder());
    forall p | p in sorted
      ensures IsArrayIndex(p.0)
    {
      assert p in multiset(sorted);
      assert p in multiset(indices);
    }
    assert TotalPreorderOn(IndexOrder(), dom);
    InsertionSortSorted(indices, IndexOrder(), dom);
  }

  /** The array-index names come first, in ascending numeric order. */
  lemma KeyOrderIndicesAscending(props: seq<(string, Schema)>)
    ensures var r := KeyOrder(props);
      forall i, j :: 0 <= i < j < |r| && IsArrayIndex(r[j].0) ==> IsArrayIndex(r[i].0) && DigitsValue(r[i].0) <= DigitsValue(r[j].0)
  {
    var sorted := InsertionSort(Filter(props, IndexEntry()), IndexOrder());
    var others := Filter(props, OtherEntry());
    IndexPartSorted(props);
    var r := KeyOrder(props);
    assert r == sorted + others;
    forall i, j | 0 <= i < j < |r| && IsArrayIndex(r[j].0)
      ensures IsArrayIndex(r[i].0) && DigitsValue(r[i].0) <= DigitsValue(r[j].0)
    {
      assert j < |sorted|;
      assert IndexOrder()(sorted[i], sorted[j]) <= 0;
    }
  }

  // ---------------------------------------------------------------------
  // The check

  /** The outcome of `validateAgainstSchema`: the error list, or the
      TypeError thrown by `in` on a primitive input. */
  datatype Outcome = Errors(errors: seq<string>) | Threw

  function Present(input: Value): string -> bool
  {
    name => In(input, name)
  }

  /** The browser's type failure: the property is `in` the input, its `type`
      is truthy (a non-empty name; an array of names falls to the switch's
      default) and `validateType` rejects the value. */
  function Fails(input: Value): ((string, Schema)) -> bool
  {
    (p: (string, Schema)) => p.1.typeDecl.Named? && p.1.typeDecl.name != "" && In(input, p.0)
      && !ValidateType(Lookup(input, p.0), p.1.typeDecl.name)
  }

  /** `validateAgainstSchema(input, schema)`. */
  function ValidateAgainstSchema(input: Value, schema: Schema): (r: Outcome)
    ensures r.Threw? <==> IsPrimitive(input) && (|RequiredNames(schema)| > 0 || |PropertyList(schema)| > 0)
    ensures IsEmpty(schema) ==> r == Errors([])
  {
    if IsPrimitive(input) && (|RequiredNames(schema)| > 0 || |PropertyList(schema)| > 0) then Threw
    else
      Errors(MissingErrors(RequiredNames(schema), Present(input)) + TypeErrors(KeyOrder(PropertyList(schema)), Fails(input)))
  }

  /** `KeyOrder` visits exactly the declared properties. */
  lemma KeyOrderMembers(props: seq<(string, Schema)>)
    ensures forall p :: p in KeyOrder(props) <==> p in props
  {
    KeyOrderPermutes(props);
    forall p ensures p in KeyOrder(props) <==> p in props
    {
      assert p in KeyOrder(props) <==> p in multiset(KeyOrder(props));
    }
  }

  /** A field is reported missing iff it is required and not `in` the input;
      one message per listing of the name in `required`. */
  lemma RequiredErrorCount(input: Value, schema: Schema, f: string)
    requires !IsPrimitive(input)
    ensures var r := ValidateAgainstSchema(input, schema);
      r.Errors? && Count(r.errors, MissingMsg(f)) == (if In(input, f) then 0 else Count(RequiredNames(schema), f))
  {
    ReportCount(RequiredNames(schema), Present(input), KeyOrder(PropertyList(schema)), Fails(input), f);
  }

  /** Membership of a wrong-type message, in terms of `Fails`. */
  lemma TypeErrorFlagged(input: Value, schema: Schema, name: string, typeName: string)
    requires !IsPrimitive(input)
    ensures var r := ValidateAgainstSchema(input, schema);
      r.Errors? &&
      ((TypeMsg(name, typeName) in r.errors)
        <==> (exists p :: p in PropertyList(schema) && Flagged(p, Fails(input))
                && TypeMsg(name, typeName) == TypeMsg(p.0, p.1.typeDecl.name)))
  {
    var props := PropertyList(schema);
    var keys := KeyOrder(props);
    var e := TypeMsg(name, typeName);
    ReportTypeMembers(RequiredNames(schema), Present(input), keys, Fails(input), name, typeName);
    KeyOrderMembers(props);
    FlaggedSameMembers(keys, props, Fails(input), e);
  }

  /** A wrong-type message is produced exactly for a property that is `in`
      the input, declares a non-empty type name, and fails `validateType`. */
  lemma TypeErrorIff(input: Value, schema: Schema, name: string, typeName: string)
    requires !IsPrimitive(input)
    ensures var r := ValidateAgainstSchema(input, schema);
      r.Errors? &&
      ((TypeMsg(name, typeName) in r.errors)
        <==> (exists p :: p in PropertyList(schema) && p.1.typeDecl.Named? && p.1.typeDecl.name != ""
               && In(input, p.0) && !ValidateType(Lookup(input, p.0), p.1.typeDecl.name)
               && TypeMsg(name, typeName) == TypeMsg(p.0, p.1.typeDecl.name)))
  {
    TypeErrorFlagged(input, schema, name, typeName);
  }

  /** Missing-field errors first, in the order of `required`; after them
      only type errors, which follow `KeyOrder`. */
  lemma ErrorsOrdered(input: Value, schema: Schema)
    requires !IsPrimitive(input)
    ensures var r := ValidateAgainstSchema(input, schema);
      r.Errors? &&
      exists k :: 0 <= k <= |r.errors|
        && Subseq(r.errors[..k], MissingMessages(RequiredNames(schema)))
        && r.errors[k..] == TypeErrors(KeyOrder(PropertyList(schema)), Fails(input))
        && (forall i :: k <= i < |r.errors| ==> IsTypeMsg(r.errors[i]))
  {
    var keys := KeyOrder(PropertyList(schema));
    var missing := MissingErrors(RequiredNames(schema), Present(input));
    var typed := TypeErrors(keys, Fails(input));
    var errs := ValidateAgainstSchema(input, schema).errors;
    assert errs == missing + typed;
    var k := ReportOrdered(RequiredNames(schema), Present(input), keys, Fails(input));
    assert errs[k..] == typed;
  }

  /** Where the two validators part ways, for an object input holding
      `name: null` and a schema requiring `name`: the server reports it
      missing, the browser does not. */
  lemma NullIsPresentInBrowserOnly(name: string, rest: seq<(string, Value)>, schema: Schema)
    requires RequiredNames(schema) == [name]
    ensures var input := Map([(name, Null)] + rest);
      && MissingMsg(name) in Validator.ValidateInput(schema, input).errors
      && MissingMsg(name) !in ValidateAgainstSchema(input, schema).errors
  {
    var input := Map([(name, Null)] + rest);
    assert Get(input, name) == Some(Null);
    Validator.MissingReportedIff(schema, input, name);
    RequiredErrorCount(input, schema, name);
  }

  /** The browser's strict typing, against the server's loose typing. */
  lemma StrictTyping()
    ensures !ValidateType(Own(Str("30")), "integer") && Validator.ValidateType(Str("30"), "integer")
    ensures ValidateType(Own(Null), "object") && !Validator.ValidateType(Null, "object")
    ensures !ValidateType(Own(List([])), "object") && Validator.ValidateType(List([]), "object")
    ensures !ValidateType(Inherited("toString"), "object")
  {
    NumericStringExamples();
  }
}

=== FILE: escape.dfy ===
/**
 `escapeHtml` in assets/js/admin.js: the five characters that are special in
 HTML text and attribute values are replaced by character references, every
 other character is kept.
 */
module Escape {

  predicate IsSpecial(c: char)
  {
    c == '&' || c == '<' || c == '>' || c == '"' || c == '\''
  }

  /** The replacement table: `&amp;`, `&lt;`, `&gt;`, `&quot;`, `&#039;`. */
  function Reference(c: char): (r: string)
    requires IsSpecial(c)
    ensures |r| >= 4 && r[0] == '&' && r[|r| - 1] == ';'
  {
    match c
    case '&' => "&amp;"
    case '<' => "&lt;"
    case '>' => "&gt;"
    case '"' => "&quot;"
    case '\'' => "&#039;"
  }

  function EscapeChar(c: char): string
  {
    if IsSpecial(c) then Reference(c) else [c]
  }

  /** `escapeHtml(text)`. */
  function EscapeHtml(s: string): (r: string)
    ensures |r| >= |s|
    ensures forall i :: 0 <= i < |r| ==> r[i] != '<' && r[i] != '>' && r[i] != '"' && r[i] != '\''
  {
    if |s| == 0 then "" else EscapeChar(s[0]) + EscapeHtml(s[1..])
  }

  /** An independent decoder for the five references (and nothing else):
      what a browser shows for the escaped text. */
  function Unescape(s: string): string
  {
    if |s| == 0 then ""
    else if s[0] != '&' then [s[0]] + Unescape(s[1..])
    else if |s| >= 5 && s[..5] == "&amp;" then "&" + Unescape(s[5..])
    else if |s| >= 4 && s[..4] == "&lt;" then "<" + Unescape(s[4..])
    else if |s| >= 4 && s[..4] == "&gt;" then ">" + Unescape(s[4..])
    else if |s| >= 6 && s[..6] == "&quot;" then "\"" + Unescape(s[6..])
    else if |s| >= 6 && s[..6] == "&#039;" then "'" + Unescape(s[6..])
    else [s[0]] + Unescape(s[1..])
  }

  lemma UnescapeReference(c: char, tail: string)
    requires IsSpecial(c)
    ensures Unescape(Reference(c) + tail) == [c] + Unescape(tail)
  {
    var r := Reference(c);
    var e := r + tail;
    assert e[..|r|] == r;
    assert e[|r|..] == tail;
    assert e[0] == '&' && e[1] == r[1];
    if c != '&' && |e| >= 5 {
      assert e[..5] != "&amp;" by { assert e[..5][1] == r[1]; }
    }
  }

  lemma UnescapeOther(c: char, tail: string)
    requires c != '&'
    ensures Unescape([c] + tail) == [c] + Unescape(tail)
  {
    assert ([c] + tail)[0] == c;
    assert ([c] + tail)[1..] == tail;
  }

  /** Escaping loses nothing: decoding the escaped text gives the original. */
  lemma {:induction false} EscapeRoundTrip(s: string)
    ensures Unescape(EscapeHtml(s)) == s
  {
    if |s| > 0 {
      EscapeRoundTrip(s[1..]);
      if IsSpecial(s[0]) {
        UnescapeReference(s[0], EscapeHtml(s[1..]));
      } else {
        UnescapeOther(s[0], EscapeHtml(s[1..]));
      }
      assert s == [s[0]] + s[1..];
    }
  }

  /** Escaping distributes over concatenation. */
  lemma {:induction false} EscapeConcat(a: string, b: string)
    ensures EscapeHtml(a + b) == EscapeHtml(a) + EscapeHtml(b)
  {
    if |a| > 0 {
      assert (a + b)[0] == a[0];
      assert (a + b)[1..] == a[1..] + b;
      EscapeConcat(a[1..], b);
    } else {
      assert a + b == b;
    }
  }

  /** Text without special characters is shown as it is. */
  lemma {:induction false} EscapePlainText(s: string)
    requires forall i :: 0 <= i < |s| ==> !IsSpecial(s[i])
    ensures EscapeHtml(s) == s
  {
    if |s| > 0 {
      EscapePlainText(s[1..]);
      assert s == [s[0]] + s[1..];
    }
  }

  lemma EscapeExample()
    ensures EscapeHtml("a<b") == "a&lt;b"
  {
    assert EscapeHtml("b") == "b";
    assert EscapeHtml("<b") == "&lt;" + "b";
  }
}

=== FILE: example_input.dfy ===
/**
 The example input the explorer pre-fills for an ability
 (`generate_example_input` and `get_example_value` in
 admin/class-admin-page.php): one entry per declared property, holding the
 property's `default`, else its `example`, else a placeholder of its type.
 */
module ExampleInput {
  import opened Values
  import opened Schemas
  import opened Messages
  import Validator
  import ClientValidator

  /** The placeholder for a declared type; an absent (or null) `type` reads
      as "string", and a type name the switch does not know, or an array of
      names, gives null. */
  function Placeholder(t: TypeDecl): (v: Value)
    ensures v == Null <==> t.Union? || (t.Named? && t.name !in {"string", "number", "integer", "boolean", "array", "object"})
  {
    match t
    case Untyped => Str("")
    case Union(_) => Null
    case Named(name) =>
      match name
      case "string" => Str("")
      case "number" => Int(0)
      case "integer" => Int(0)
      case "boolean" => Bool(false)
      case "array" => List([])
      case "object" => EmptyObject
      case _ => Null
  }

  /** `get_example_value($prop_schema)`. */
  function ExampleValue(p: Schema): Value
  {
    if p.default != Null then p.default
    else if p.example != Null then p.example
    else Placeholder(p.typeDecl)
  }

  /** The `foreach` over the properties, assigning each name in turn. */
  function Collect(props: seq<(string, Schema)>): seq<(string, Value)>
  {
    if |props| == 0 then []
    else
      var last := props[|props| - 1];
      Put(Collect(props[..|props| - 1]), last.0, ExampleValue(last.1))
  }

  /** `generate_example_input($schema)`. */
  function GenerateExampleInput(schema: Schema): (r: Value)
    ensures r.Map?
    ensures IsEmpty(schema) || schema.properties.None? ==> r == Map([])
  {
    if IsEmpty(schema) || schema.properties.None? then Map([])
    else Map(Collect(schema.properties.value))
  }

  // ---------------------------------------------------------------------

  /** The generated input holds, under each property's name, that
      property's `default` when set, else its `example` when set, else the
      placeholder of its type (for a name declared more than once, its last
      declaration counts). The value is null only when all three are. */
  lemma GeneratedValuePriority(schema: Schema, i: nat)
    requires !IsEmpty(schema) && schema.properties.Some?
    requires i < |schema.properties.value|
    requires forall j :: i < j < |schema.properties.value| ==> schema.properties.value[j].0 != schema.properties.value[i].0
    ensures var (name, p) := schema.properties.value[i];
      p.default != Null ==> Get(GenerateExampleInput(schema), name) == Some(p.default)
    ensures var (name, p) := schema.properties.value[i];
      p.default == Null && p.example != Null ==> Get(GenerateExampleInput(schema), name) == Some(p.example)
    ensures var (name, p) := schema.properties.value[i];
      p.default == Null && p.example == Null ==> Get(GenerateExampleInput(schema), name) == Some(Placeholder(p.typeDecl))
    ensures var (name, p) := schema.properties.value[i];
      (Get(GenerateExampleInput(schema), name) == Some(Null)
       <==> p.default == Null && p.example == Null && Placeholder(p.typeDecl) == Null)
  {
    CollectLast(schema.properties.value, i);
  }

  /** The placeholder passes the type it stands for, on the server and in
      the browser alike. */
  lemma PlaceholderConforms(t: string)
    ensures Validator.ValidateType(Placeholder(Named(t)), t)
    ensures ClientValidator.ValidateType(ClientValidator.Own(Placeholder(Named(t))), t)
  {
  }

  /** The generated input holds one entry per property name, in declaration
      order. */
  lemma {:induction false} CollectKeys(props: seq<(string, Schema)>)
    requires UniqueKeys(props)
    ensures Keys(Collect(props)) == Keys(props)
  {
    if |props| > 0 {
      var init := props[..|props| - 1];
      var last := props[|props| - 1];
      assert UniqueKeys(init);
      CollectKeys(init);
      PutKeys(Collect(init), last.0, ExampleValue(last.1));
      assert last.0 !in Keys(init);
      assert Keys(props) == Keys(init) + [last.0];
    }
  }

  /** The entry for a name holds the example value of its last declaration. */
  lemma {:induction false} CollectLast(props: seq<(string, Schema)>, i: nat)
    requires i < |props|
    requires forall j :: i < j < |props| ==> props[j].0 != props[i].0
    ensures Lookup(Collect(props), props[i].0) == Some(ExampleValue(props[i].1))
  {
    var init := props[..|props| - 1];
    var last := props[|props| - 1];
    PutLookup(Collect(init), last.0, ExampleValue(last.1), props[i].0);
    if i < |props| - 1 {
      CollectLast(init, i);
    }
  }

  /** A name no property declares gets no entry. */
  lemma {:induction false} CollectAbsent(props: seq<(string, Schema)>, k: string)
    requires forall j :: 0 <= j < |props| ==> props[j].0 != k
    ensures Lookup(Collect(props), k) == None
  {
    if |props| > 0 {
      var init := props[..|props| - 1];
      var last := props[|props| - 1];
      PutLookup(Collect(init), last.0, ExampleValue(last.1), k);
      CollectAbsent(init, k);
    }
  }

  predicate NothingDeclared(props: seq<(string, Schema)>)
  {
    forall i :: 0 <= i < |props| ==> props[i].1.default == Null && props[i].1.example == Null
  }

  predicate KnownTypes(props: seq<(string, Schema)>)
  {
    forall i :: 0 <= i < |props| ==>
      props[i].1.typeDecl.Untyped? ||
      (props[i].1.typeDecl.Named? && props[i].1.typeDecl.name in {"string", "number", "integer", "boolean", "array", "object"})
  }

  predicate RequiredDeclared(schema: Schema)
  {
    forall f :: f in RequiredNames(schema) ==> f in Keys(PropertyList(schema))
  }

  lemma ServerFindsRequired(schema: Schema)
    requires UniqueKeys(PropertyList(schema)) && NothingDeclared(PropertyList(schema))
    requires KnownTypes(PropertyList(schema)) && RequiredDeclared(schema)
    ensures MissingErrors(RequiredNames(schema), Validator.Present(Map(Collect(PropertyList(schema))))) == []
  {
    var props := PropertyList(schema);
    var input := Map(Collect(props));
    var required := RequiredNames(schema);
    forall i | 0 <= i < |required|
      ensures Validator.Present(input)(required[i])
    {
      assert required[i] in Keys(props);
      var j :| 0 <= j < |props| && Keys(props)[j] == required[i];
      CollectLast(props, j);
    }
    MissingErrorsNone(required, Validator.Present(input));
  }

  lemma ServerAcceptsPlaceholder(props: seq<(string, Schema)>, i: nat)
    requires UniqueKeys(props) && NothingDeclared(props) && KnownTypes(props) && i < |props|
    ensures !Flagged(props[i], Validator.Fails(Map(Collect(props))))
  {
    CollectLast(props, i);
    var t := props[i].1.typeDecl;
    if t.Named? {
      PlaceholderConforms(t.name);
    }
  }

  lemma ServerFindsNoTypeError(props: seq<(string, Schema)>)
    requires UniqueKeys(props) && NothingDeclared(props) && KnownTypes(props)
    ensures TypeErrors(props, Validator.Fails(Map(Collect(props)))) == []
  {
    var input := Map(Collect(props));
    forall i | 0 <= i < |props|
      ensures !Flagged(props[i], Validator.Fails(input))
    {
      ServerAcceptsPlaceholder(props, i);
    }
    TypeErrorsNone(props, Validator.Fails(input));
  }

  /** When no property declares a default or an example, every type is one
      the switch knows, and every required name is a declared property, the
      server accepts the pre-filled input as it stands. */
  lemma GeneratedPassesServer(schema: Schema)
    requires UniqueKeys(PropertyList(schema)) && NothingDeclared(PropertyList(schema))
    requires KnownTypes(PropertyList(schema)) && RequiredDeclared(schema)
    ensures Validator.ValidateInput(schema, GenerateExampleInput(schema)).valid
  {
    GeneratedIsCollected(schema);
    ServerFindsRequired(schema);
    ServerFindsNoTypeError(PropertyList(schema));
  }

  lemma PlaceholderNeverFlagged(input: Value, p: (string, Schema))
    requires ClientValidator.Lookup(input, p.0) == ClientValidator.Own(Placeholder(p.1.typeDecl))
    ensures !Flagged(p, ClientValidator.Fails(input))
  {
    if p.1.typeDecl.Named? {
      PlaceholderConforms(p.1.typeDecl.name);
    }
  }

  lemma GeneratedIsCollected(schema: Schema)
    ensures GenerateExampleInput(schema) == Map(Collect(PropertyList(schema)))
  {
  }

  lemma CollectHoldsPlaceholders(props: seq<(string, Schema)>, i: nat)
    requires UniqueKeys(props) && NothingDeclared(props) && i < |props|
    ensures ClientValidator.Lookup(Map(Collect(props)), props[i].0) == ClientValidator.Own(Placeholder(props[i].1.typeDecl))
  {
    CollectLast(props, i);
  }

  lemma BrowserFindsRequired(schema: Schema)
    requires UniqueKeys(PropertyList(schema)) && NothingDeclared(PropertyList(schema)) && RequiredDeclared(schema)
    ensures MissingErrors(RequiredNames(schema), ClientValidator.Present(Map(Collect(PropertyList(schema))))) == []
  {
    var props := PropertyList(schema);
    var input := Map(Collect(props));
    var required := RequiredNames(schema);
    forall i | 0 <= i < |required|
      ensures ClientValidator.Present(input)(required[i])
    {
      assert required[i] in Keys(props);
      var j :| 0 <= j < |props| && Keys(props)[j] == required[i];
      CollectHoldsPlaceholders(props, j);
    }
    MissingErrorsNone(required, ClientValidator.Present(input));
  }

  lemma BrowserFindsNoTypeError(props: seq<(string, Schema)>)
    requires UniqueKeys(props) && NothingDeclared(props)
    ensures TypeErrors(ClientValidator.KeyOrder(props), ClientValidator.Fails(Map(Collect(props)))) == []
  {
    var input := Map(Collect(props));
    var keys := ClientValidator.KeyOrder(props);
    ClientValidator.KeyOrderPermutes(props);
    forall i | 0 <= i < |keys|
      ensures !Flagged(keys[i], ClientValidator.Fails(input))
    {
      assert keys[i] in multiset(props);
      var j :| 0 <= j < |props| && props[j] == keys[i];
      CollectHoldsPlaceholders(props, j);
      PlaceholderNeverFlagged(input, keys[i]);
    }
    TypeErrorsNone(keys, ClientValidator.Fails(input));
  }

  /** The browser accepts the pre-filled input under weaker conditions: any
      declared types, because null counts as present there and an unknown
      type or an array of types is never checked. */
  lemma GeneratedPassesBrowser(schema: Schema)
    requires UniqueKeys(PropertyList(schema)) && NothingDeclared(PropertyList(schema)) && RequiredDeclared(schema)
    ensures ClientValidator.ValidateAgainstSchema(GenerateExampleInput(schema), schema) == ClientValidator.Errors([])
  {
    GeneratedIsCollected(schema);
    BrowserFindsRequired(schema);
    BrowserFindsNoTypeError(PropertyList(schema));
  }

  /** A required property typed `["string", "null"]` is pre-filled with null,
      which the server then reports as missing and the browser accepts. */
  lemma RequiredUnionPrefilledAsMissing()
    ensures var schema := Schema(Named("object"),
                                 Some([("tag", Schema(Union(["string", "null"]), None, None, Null, Null, false))]),
                                 Some(["tag"]), Null, Null, false);
      var input := GenerateExampleInput(schema);
      && input == Map([("tag", Null)])
      && Validator.ValidateInput(schema, input).errors == [MissingMsg("tag")]
      && ClientValidator.ValidateAgainstSchema(input, schema) == ClientValidator.Errors([])
  {
    var schema := Schema(Named("object"),
                         Some([("tag", Schema(Union(["string", "null"]), None, None, Null, Null, false))]),
                         Some(["tag"]), Null, Null, false);
    var input := GenerateExampleInput(schema);
    assert input == Map([("tag", Null)]);
    assert MissingErrors(["tag"], Validator.Present(input)) == [MissingMsg("tag")];
    assert TypeErrors(PropertyList(schema), Validator.Fails(input)) == [];
    GeneratedPassesBrowser(schema);
  }

  /** Generation does not descend into nested schemas: an object property
      is pre-filled with an empty object whatever properties it declares. */
  lemma NestedObjectStaysEmpty(inner: Schema)
    requires inner.typeDecl == Named("object") && inner.default == Null && inner.example == Null
    ensures GenerateExampleInput(Schema(Named("object"), Some([("settings", inner)]), None, Null, Null, false))
         == Map([("settings", EmptyObject)])
  {
    var props := [("settings", inner)];
    assert props[..0] == [];
    assert Collect(props) == Put([], "settings", EmptyObject);
  }
}

=== FILE: handler.dfy ===
/**
 `Ability_Explorer_Handler` in includes/class-ability-handler.php, apart from
 the validator: reading abilities from the Abilities API registry, the
 provider classification, the statistics, and the shaping of an invocation's
 result. The registry, the active theme and `WP_Ability::execute` are
 parameters.
 */
module Handler {
  import opened Values
  import opened Schemas
  import opened Seqs

  /** A registered `WP_Ability`, through its getters (`title` is
      `get_label()`). A missing `get_meta` reads as an empty array. */
  datatype Ability = Ability(
    name: string,
    title: string,
    description: string,
    inputSchema: Schema,
    outputSchema: Value,
    meta: Value)

  /** `get_stylesheet()` and `get_template()`. */
  datatype Theme = Theme(stylesheet: string, template: string)

  /** The array `format_single_ability` builds; `raw_data` repeats the
      getters and adds the meta. */
  datatype Entry = Entry(
    slug: string,
    name: string,
    description: string,
    provider: Value,
    inputSchema: Schema,
    outputSchema: Value,
    meta: Value)

  // ---------------------------------------------------------------------
  // Provider classification

  /** PHP `explode('/', $s)`: the pieces between the slashes. */
  function Explode(s: string): (parts: seq<string>)
    ensures |parts| >= 1
    ensures forall i, j :: 0 <= i < |parts| && 0 <= j < |parts[i]| ==> parts[i][j] != '/'
  {
    if |s| == 0 then [""]
    else
      var rest := Explode(s[1..]);
      if s[0] == '/' then [""] + rest
      else [[s[0]] + rest[0]] + rest[1..]
  }

  /** PHP `implode('/', $parts)`. */
  function Implode(parts: seq<string>): string
    requires |parts| >= 1
  {
    if |parts| == 1 then parts[0] else parts[0] + "/" + Implode(parts[1..])
  }

  /** `explode` loses nothing: joining the pieces gives back the name. */
  lemma {:induction false} ExplodeRoundTrip(s: string)
    ensures Implode(Explode(s)) == s
  {
    if |s| > 0 {
      var rest := Explode(s[1..]);
      ExplodeRoundTrip(s[1..]);
      if s[0] == '/' {
        assert ([""] + rest)[1..] == rest;
        assert s == "" + "/" + s[1..];
      } else {
        var parts := [[s[0]] + rest[0]] + rest[1..];
        assert parts[1..] == rest[1..];
        if |rest| == 1 {
          assert s == [s[0]] + rest[0];
        } else {
          assert Implode(rest) == rest[0] + "/" + Implode(rest[1..]);
          assert s == [s[0]] + s[1..];
        }
      }
    }
  }

  function SlashCount(s: string): nat
  {
    if |s| == 0 then 0 else (if s[0] == '/' then 1 else 0) + SlashCount(s[1..])
  }

  /** `explode` yields one more piece than there are slashes. */
  lemma {:induction false} ExplodeCount(s: string)
    ensures |Explode(s)| == SlashCount(s) + 1
  {
    if |s| > 0 {
      ExplodeCount(s[1..]);
    }
  }

  const CoreNamespaces: set<string> := {"wordpress", "wp", "core"}

  /** `detect_provider($name, $meta)`. */
  function DetectProvider(name: string, meta: Value, theme: Theme): (r: Value)
    ensures Isset(meta, "provider") ==> r == Get(meta, "provider").value
    ensures !Isset(meta, "provider") ==> r in {Str("Core"), Str("Theme"), Str("Plugin")}
  {
    if Isset(meta, "provider") then Get(meta, "provider").value
    else
      var parts := Explode(name);
      if |parts| == 2 && parts[0] in CoreNamespaces then Str("Core")
      else if |parts| == 2 && (parts[0] == theme.stylesheet || parts[0] == theme.template) then Str("Theme")
      else Str("Plugin")
  }

  /** The text before the first slash. */
  function Namespace(name: string): string
  {
    if |name| == 0 || name[0] == '/' then "" else [name[0]] + Namespace(name[1..])
  }

  lemma {:induction false} NamespaceIsFirstPiece(name: string)
    ensures Explode(name)[0] == Namespace(name)
  {
    if |name| > 0 {
      NamespaceIsFirstPiece(name[1..]);
    }
  }

  /** Without a meta `provider`, the classification in terms of the name
      itself: Core for a name with exactly one slash under a core namespace,
      Theme for one under the active theme's stylesheet or template,
      Plugin otherwise. */
  lemma ProviderByName(name: string, meta: Value, theme: Theme)
    requires !Isset(meta, "provider")
    ensures DetectProvider(name, meta, theme) == Str("Core")
        <==> SlashCount(name) == 1 && Namespace(name) in CoreNamespaces
    ensures DetectProvider(name, meta, theme) == Str("Theme")
        <==> SlashCount(name) == 1 && Namespace(name) !in CoreNamespaces
             && (Namespace(name) == theme.stylesheet || Namespace(name) == theme.template)
    ensures DetectProvider(name, meta, theme) == Str("Plugin")
        <==> SlashCount(name) != 1
             || (Namespace(name) !in CoreNamespaces && Namespace(name) != theme.stylesheet && Namespace(name) != theme.template)
  {
    ExplodeCount(name);
    NamespaceIsFirstPiece(name);
  }

  lemma CoreExample(theme: Theme)
    ensures DetectProvider("wp/info", Map([]), theme) == Str("Core")
  {
    ProviderByName("wp/info", Map([]), theme);
    assert Namespace("wp/info") == "wp";
    assert SlashCount("wp/info") == 1;
  }

  lemma PluginExample(theme: Theme)
    ensures DetectProvider("wp/a/b", Map([]), theme) == Str("Plugin")
  {
    ProviderByName("wp/a/b", Map([]), theme);
    assert SlashCount("wp/a/b") == 2;
  }

  lemma MetaExample(theme: Theme)
    ensures DetectProvider("wp/a", Map([("provider", Str("Custom"))]), theme) == Str("Custom")
  {
  }

  // ---------------------------------------------------------------------
  // Reading the registry

  /** `format_single_ability($ability)`. */
  function Format(a: Ability, theme: Theme): (e: Entry)
    ensures e.slug == a.name && e.inputSchema == a.inputSchema
  {
    Entry(a.name, a.title, a.description, DetectProvider(a.name, a.meta, theme), a.inputSchema, a.outputSchema, a.meta)
  }

  /** `get_all_abilities()`: `listing` is what `wp_get_abilities()` returned,
      `None` when the function does not exist or threw. */
  function GetAllAbilities(listing: Option<seq<Ability>>, theme: Theme): (r: seq<Entry>)
    ensures listing.None? ==> r == []
    ensures listing.Some? ==> |r| == |listing.value|
    ensures listing.Some? ==> forall i :: 0 <= i < |r| ==> r[i] == Format(listing.value[i], theme)
  {
    if listing.None? then []
    else seq(|listing.value|, i requires 0 <= i < |listing.value| => Format(listing.value[i], theme))
  }

  /** `wp_get_ability($slug)` over the registry: the first ability so named. */
  function Find(registry: seq<Ability>, slug: string): (r: Option<Ability>)
    ensures r.Some? ==> r.value in registry && r.value.name == slug
    ensures r.None? <==> forall i :: 0 <= i < |registry| ==> registry[i].name != slug
  {
    if |registry| == 0 then None
    else if registry[0].name == slug then Some(registry[0])
    else Find(registry[1..], slug)
  }

  /** `get_ability($slug)`; `api` is whether `wp_get_ability` exists. */
  function GetAbility(api: bool, registry: seq<Ability>, slug: string, theme: Theme): (r: Option<Entry>)
    ensures r.Some? <==> api && exists i :: 0 <= i < |registry| && registry[i].name == slug
    ensures r.Some? ==> r.value.slug == slug
  {
    if !api then None
    else
      match Find(registry, slug)
      case None => None
      case Some(a) => Some(Format(a, theme))
  }

  // ---------------------------------------------------------------------
  // Statistics

  datatype Statistics = Statistics(total: nat, core: nat, plugin: nat, theme: nat)

  /** Whether an entry's provider is exactly the string `provider`. */
  function HasProvider(provider: string): Entry -> bool
  {
    (e: Entry) => e.provider == Str(provider)
  }

  /** The number of entries whose provider is exactly the string `provider`:
      the `by_provider` counter that the loop increments. */
  function CountProvider(entries: seq<Entry>, provider: string): (n: nat)
    ensures n <= |entries|
    ensures n == |Filter(entries, HasProvider(provider))|
  {
    if |entries| == 0 then 0
    else (if entries[0].provider == Str(provider) then 1 else 0) + CountProvider(entries[1..], provider)
  }

  predicate Counted(e: Entry)
  {
    e.provider in {Str("Core"), Str("Plugin"), Str("Theme")}
  }

  /** A value PHP 8 refuses as an array offset in `isset`: an array or an
      object, for which it throws a TypeError. Strings, integers, floats and
      booleans are keys (the last three as integers). */
  predicate IllegalOffset(v: Value)
  {
    v.List? || v.Map? || v.EmptyObject?
  }

  /** The three `by_provider` counters. */
  datatype Counters = Counters(core: nat, plugin: nat, theme: nat)

  /** 1 when the provider is exactly the key `name`, 0 otherwise. */
  function Hit(provider: Value, name: string): nat
  {
    if provider == Str(name) then 1 else 0
  }

  /** The counter a provider bumps in `$stats['by_provider']`. Only the three
      string keys are set there, so any other provider bumps nothing. */
  function Bump(c: Counters, provider: Value): Counters
  {
    Counters(c.core + Hit(provider, "Core"), c.plugin + Hit(provider, "Plugin"), c.theme + Hit(provider, "Theme"))
  }

  /** The loop of `get_statistics`: the Core, Plugin and Theme counters, or
      `None` when a provider is an array or an object and the `isset` on it
      throws. */
  function ProviderCounts(entries: seq<Entry>): (r: Option<Counters>)
    ensures r.None? <==> exists i :: 0 <= i < |entries| && IllegalOffset(entries[i].provider)
    ensures r.Some? ==>
      r.value == Counters(CountProvider(entries, "Core"), CountProvider(entries, "Plugin"), CountProvider(entries, "Theme"))
  {
    if |entries| == 0 then Some(Counters(0, 0, 0))
    else
      IllegalSplit(entries);
      BumpCounts(entries);
      if IllegalOffset(entries[0].provider) then None
      else
        match ProviderCounts(entries[1..])
        case None => None
        case Some(c) => Some(Bump(c, entries[0].provider))
  }

  lemma IllegalSplit(entries: seq<Entry>)
    requires |entries| > 0
    ensures (exists i :: 0 <= i < |entries| && IllegalOffset(entries[i].provider))
        <==> IllegalOffset(entries[0].provider) || exists i :: 0 <= i < |entries[1..]| && IllegalOffset(entries[1..][i].provider)
  {
    assert forall i :: 1 <= i < |entries| ==> entries[i] == entries[1..][i - 1];
  }

  lemma CountProviderStep(entries: seq<Entry>, name: string)
    requires |entries| > 0
    ensures CountProvider(entries, name) == Hit(entries[0].provider, name) + CountProvider(entries[1..], name)
  {
  }

  lemma BumpCounts(entries: seq<Entry>)
    requires |entries| > 0
    ensures var rest := entries[1..];
      Bump(Counters(CountProvider(rest, "Core"), CountProvider(rest, "Plugin"), CountProvider(rest, "Theme")), entries[0].provider)
        == Counters(CountProvider(entries, "Core"), CountProvider(entries, "Plugin"), CountProvider(entries, "Theme"))
  {
    CountProviderStep(entries, "Core");
    CountProviderStep(entries, "Plugin");
    CountProviderStep(entries, "Theme");
  }

  /** `get_statistics()`; `None` when it throws. The TypeError is a PHP
      `Error`, which nothing in the plugin catches. */
  function GetStatistics(listing: Option<seq<Ability>>, theme: Theme): (r: Option<Statistics>)
    ensures var entries := GetAllAbilities(listing, theme);
      r.None? <==> exists i :: 0 <= i < |entries| && IllegalOffset(entries[i].provider)
    ensures r.Some? ==> r.value.total == |GetAllAbilities(listing, theme)|
    ensures r.Some? ==> r.value.core == |Filter(GetAllAbilities(listing, theme), HasProvider("Core"))|
    ensures r.Some? ==> r.value.plugin == |Filter(GetAllAbilities(listing, theme), HasProvider("Plugin"))|
    ensures r.Some? ==> r.value.theme == |Filter(GetAllAbilities(listing, theme), HasProvider("Theme"))|
  {
    var entries := GetAllAbilities(listing, theme);
    match ProviderCounts(entries)
    case None => None
    case Some(c) => Some(Statistics(|entries|, c.core, c.plugin, c.theme))
  }

  lemma {:induction false} CountsBounded(entries: seq<Entry>)
    ensures CountProvider(entries, "Core") + CountProvider(entries, "Plugin") + CountProvider(entries, "Theme") <= |entries|
    ensures CountProvider(entries, "Core") + CountProvider(entries, "Plugin") + CountProvider(entries, "Theme") == |entries|
        <==> forall i :: 0 <= i < |entries| ==> Counted(entries[i])
  {
    if |entries| > 0 {
      CountsBounded(entries[1..]);
      assert forall i :: 1 <= i < |entries| ==> entries[i] == entries[1..][i - 1];
    }
  }

  /** The three provider counts never exceed the total, and reach it exactly
      when every ability's provider is Core, Plugin or Theme. */
  lemma StatisticsSum(listing: Option<seq<Ability>>, theme: Theme)
    ensures var s := GetStatistics(listing, theme);
      s.Some? ==> s.value.core + s.value.plugin + s.value.theme <= s.value.total
    ensures var s := GetStatistics(listing, theme);
      var entries := GetAllAbilities(listing, theme);
      s.Some? ==> (s.value.core + s.value.plugin + s.value.theme == s.value.total <==> forall i :: 0 <= i < |entries| ==> Counted(entries[i]))
  {
    CountsBounded(GetAllAbilities(listing, theme));
  }

  /** With no meta provider anywhere, the statistics exist and every ability
      is counted. */
  lemma StatisticsCountAllByName(listing: seq<Ability>, theme: Theme)
    requires forall i :: 0 <= i < |listing| ==> !Isset(listing[i].meta, "provider")
    ensures GetStatistics(Some(listing), theme).Some?
    ensures var s := GetStatistics(Some(listing), theme).value;
      s.core + s.plugin + s.theme == s.total == |listing|
  {
    CountsBounded(GetAllAbilities(Some(listing), theme));
  }

  // ---------------------------------------------------------------------
  // Invocation

  /** How `execute` was called: with no argument when the input schema is
      empty, with the input otherwise. */
  datatype Call = Call(ability: Ability, arg: Option<Value>)

  /** What `WP_Ability::execute` did: returned a value, returned a
      `WP_Error`, or threw an `Exception`, which `invoke_ability` catches.
      A PHP `Error` is not an `Exception`; it escapes the handler and is not
      an outcome of this model. */
  datatype ExecOutcome =
    | Returned(value: Value)
    | WpError(message: string, code: Value, data: Value)
    | Raised(message: string, trace: string)

  datatype FailureDetails = NoDetails | ErrorDetails(code: Value, data: Value) | Trace(trace: string)

  /** The array `invoke_ability` returns: `success` with `data`, or `error`
      with `code`/`data` (from a `WP_Error`) or `trace` (from an exception). */
  datatype InvokeResult = Succeeded(data: Value) | Failed(error: string, details: FailureDetails)

  datatype Invocation = Invocation(call: Option<Call>, result: InvokeResult)

  function NotFoundMsg(slug: string): string
  {
    "Ability \"" + slug + "\" not found"
  }

  /** `invoke_ability($slug, $input)`; `api` is whether `wp_get_ability`
      exists and `execute` stands for `WP_Ability::execute`. */
  function InvokeAbility(api: bool, registry: seq<Ability>, slug: string, input: Value,
                         execute: Call -> ExecOutcome): (r: Invocation)
    ensures r.call.Some? <==> api && Find(registry, slug).Some?
    ensures r.call.Some? ==> r.call.value.ability.name == slug
    ensures r.call.Some? ==> (r.call.value.arg.None? <==> IsEmpty(r.call.value.ability.inputSchema))
    ensures r.call.Some? && r.call.value.arg.Some? ==> r.call.value.arg.value == input
    ensures r.result.Succeeded? <==> r.call.Some? && execute(r.call.value).Returned?
    ensures !api ==> r.result == Failed("Abilities API not available", NoDetails)
    ensures api && Find(registry, slug).None? ==> r.result == Failed(NotFoundMsg(slug), NoDetails)
  {
    if !api then Invocation(None, Failed("Abilities API not available", NoDetails))
    else
      match Find(registry, slug)
      case None => Invocation(None, Failed(NotFoundMsg(slug), NoDetails))
      case Some(a) =>
        var call := Call(a, if IsEmpty(a.inputSchema) then None else Some(input));
        var result :=
          match execute(call)
          case Returned(v) => Succeeded(v)
          case WpError(m, c, d) => Failed(m, ErrorDetails(c, d))
          case Raised(m, t) => Failed(m, Trace(t));
        Invocation(Some(call), result)
  }

  /** Every outcome of `execute` is passed on whole: the returned value as
      `data`, an error's message, code and data, an exception's message and
      trace. */
  lemma InvokeReportsOutcome(api: bool, registry: seq<Ability>, slug: string, input: Value,
                             execute: Call -> ExecOutcome)
    ensures var r := InvokeAbility(api, registry, slug, input, execute);
      r.call.Some? ==>
        match execute(r.call.value)
        case Returned(v) => r.result == Succeeded(v)
        case WpError(m, c, d) => r.result == Failed(m, ErrorDetails(c, d))
        case Raised(m, t) => r.result == Failed(m, Trace(t))
  {
  }
}

=== FILE: messages.dfy ===
/**
 The error messages both validators produce, and the two passes that build
 an error list: one over `required`, one over `properties`. The server and
 the browser decide "present" and "wrong type" by different rules, so each
 pass takes its rule as a parameter; the message format and the order are
 the same on both sides.
 */
module Messages {
  import opened Schemas
  import opened Seqs

  /** `Required field "<name>" is missing` */
  function MissingMsg(name: string): string
  {
    "Required field \"" + name + "\" is missing"
  }

  /** `Field "<name>" should be of type "<type>"` */
  function TypeMsg(name: string, typeName: string): string
  {
    "Field \"" + name + "\" should be of type \"" + typeName + "\""
  }

  ghost predicate IsTypeMsg(e: string)
  {
    exists name, typeName :: e == TypeMsg(name, typeName)
  }

  /** A missing-field message names its field unambiguously. */
  lemma MissingMsgInjective(a: string, b: string)
    ensures MissingMsg(a) == MissingMsg(b) ==> a == b
  {
    if MissingMsg(a) == MissingMsg(b) {
      var pre := "Required field \"";
      assert |a| == |b|;
      assert a == MissingMsg(a)[|pre|..|pre| + |a|];
      assert b == MissingMsg(b)[|pre|..|pre| + |b|];
    }
  }

  /** The two kinds of message never coincide: one starts with 'R', the other with 'F'. */
  lemma MessageKindsDisjoint(n: string, m: string, t: string)
    ensures MissingMsg(n) != TypeMsg(m, t)
  {
    assert MissingMsg(n)[0] != TypeMsg(m, t)[0];
  }

  /** One missing-field message per name of `required`, in order, for each
      name the input does not hold. */
  function MissingErrors(required: seq<string>, present: string -> bool): (errs: seq<string>)
    ensures |errs| <= |required|
  {
    if |required| == 0 then []
    else
      var head := if !present(required[0]) then [MissingMsg(required[0])] else [];
      head + MissingErrors(required[1..], present)
  }

  /** A property whose declared type is a single name and whose value fails it. */
  predicate Flagged(p: (string, Schema), fails: ((string, Schema)) -> bool)
  {
    p.1.typeDecl.Named? && fails(p)
  }

  /** One wrong-type message per flagged property, in order. */
  function TypeErrors(props: seq<(string, Schema)>, fails: ((string, Schema)) -> bool): (errs: seq<string>)
    ensures |errs| <= |props|
    ensures forall i :: 0 <= i < |errs| ==> IsTypeMsg(errs[i])
  {
    if |props| == 0 then []
    else
      var head := if Flagged(props[0], fails) then [TypeMsg(props[0].0, props[0].1.typeDecl.name)] else [];
      head + TypeErrors(props[1..], fails)
  }

  function MissingMessages(required: seq<string>): seq<string>
  {
    seq(|required|, i requires 0 <= i < |required| => MissingMsg(required[i]))
  }

  // ---------------------------------------------------------------------

  lemma {:induction false} MissingErrorsCount(required: seq<string>, present: string -> bool, f: string)
    ensures Count(MissingErrors(required, present), MissingMsg(f)) == (if present(f) then 0 else Count(required, f))
  {
    if |required| > 0 {
      var head := if !present(required[0]) then [MissingMsg(required[0])] else [];
      MissingErrorsCount(required[1..], present, f);
      CountConcat(head, MissingErrors(required[1..], present), MissingMsg(f));
      MissingMsgInjective(required[0], f);
    }
  }

  lemma {:induction false} MissingErrorsNone(required: seq<string>, present: string -> bool)
    requires forall i :: 0 <= i < |required| ==> present(required[i])
    ensures MissingErrors(required, present) == []
  {
    if |required| > 0 {
      MissingErrorsNone(required[1..], present);
    }
  }

  lemma {:induction false} TypeErrorsNone(props: seq<(string, Schema)>, fails: ((string, Schema)) -> bool)
    requires forall i :: 0 <= i < |props| ==> !Flagged(props[i], fails)
    ensures TypeErrors(props, fails) == []
  {
    if |props| > 0 {
      TypeErrorsNone(props[1..], fails);
    }
  }

  lemma {:induction false} TypeErrorsNeverMissing(props: seq<(string, Schema)>, fails: ((string, Schema)) -> bool, f: string)
    ensures Count(TypeErrors(props, fails), MissingMsg(f)) == 0
  {
    var errs := TypeErrors(props, fails);
    if MissingMsg(f) in errs {
      var i :| 0 <= i < |errs| && errs[i] == MissingMsg(f);
      var n, t :| errs[i] == TypeMsg(n, t);
      MessageKindsDisjoint(f, n, t);
    }
  }

  /** Over both passes, the missing-field messages naming `f` are exactly
      one per listing of `f` in `required` when `f` is absent. */
  lemma ReportCount(required: seq<string>, present: string -> bool,
                    props: seq<(string, Schema)>, fails: ((string, Schema)) -> bool, f: string)
    ensures Count(MissingErrors(required, present) + TypeErrors(props, fails), MissingMsg(f))
         == (if present(f) then 0 else Count(required, f))
  {
    MissingErrorsCount(required, present, f);
    TypeErrorsNeverMissing(props, fails, f);
    CountConcat(MissingErrors(required, present), TypeErrors(props, fails), MissingMsg(f));
  }

  lemma {:induction false} TypeErrorsMembers(props: seq<(string, Schema)>, fails: ((string, Schema)) -> bool, e: string)
    ensures e in TypeErrors(props, fails)
        <==> exists i :: 0 <= i < |props| && Flagged(props[i], fails) && e == TypeMsg(props[i].0, props[i].1.typeDecl.name)
  {
    if |props| > 0 {
      TypeErrorsMembers(props[1..], fails, e);
      var head := if Flagged(props[0], fails) then [TypeMsg(props[0].0, props[0].1.typeDecl.name)] else [];
      assert TypeErrors(props, fails) == head + TypeErrors(props[1..], fails);
      if e in TypeErrors(props[1..], fails) {
        var i :| 0 <= i < |props[1..]| && Flagged(props[1..][i], fails) && e == TypeMsg(props[1..][i].0, props[1..][i].1.typeDecl.name);
        assert props[i + 1] == props[1..][i];
      }
      if exists i :: 0 <= i < |props| && Flagged(props[i], fails) && e == TypeMsg(props[i].0, props[i].1.typeDecl.name) {
        var i :| 0 <= i < |props| && Flagged(props[i], fails) && e == TypeMsg(props[i].0, props[i].1.typeDecl.name);
        if i > 0 {
          assert props[1..][i - 1] == props[i];
        }
      }
    }
  }

  lemma {:induction false} MissingErrorsMembers(required: seq<string>, present: string -> bool, e: string)
    ensures e in MissingErrors(required, present) <==> exists f :: f in required && !present(f) && e == MissingMsg(f)
  {
    if |required| > 0 {
      MissingErrorsMembers(required[1..], present, e);
      assert forall f :: f in required <==> f == required[0] || f in required[1..];
    }
  }

  /** Over both passes, a wrong-type message is produced exactly for a
      flagged property. */
  lemma ReportTypeMembers(required: seq<string>, present: string -> bool,
                          props: seq<(string, Schema)>, fails: ((string, Schema)) -> bool, name: string, typeName: string)
    ensures TypeMsg(name, typeName) in MissingErrors(required, present) + TypeErrors(props, fails)
        <==> exists i :: 0 <= i < |props| && Flagged(props[i], fails)
               && TypeMsg(name, typeName) == TypeMsg(props[i].0, props[i].1.typeDecl.name)
  {
    var e := TypeMsg(name, typeName);
    TypeErrorsMembers(props, fails, e);
    MissingErrorsMembers(required, present, e);
    forall f | e == MissingMsg(f)
      ensures false
    {
      MessageKindsDisjoint(f, name, typeName);
    }
  }

  /** Which messages are flagged depends only on the members of the list,
      not on their order. */
  lemma FlaggedSameMembers(keys: seq<(string, Schema)>, props: seq<(string, Schema)>,
                           fails: ((string, Schema)) -> bool, e: string)
    requires forall p :: p in keys <==> p in props
    ensures (exists i :: 0 <= i < |keys| && Flagged(keys[i], fails) && e == TypeMsg(keys[i].0, keys[i].1.typeDecl.name))
        <==> (exists p :: p in props && Flagged(p, fails) && e == TypeMsg(p.0, p.1.typeDecl.name))
  {
    if exists i :: 0 <= i < |keys| && Flagged(keys[i], fails) && e == TypeMsg(keys[i].0, keys[i].1.typeDecl.name) {
      var i :| 0 <= i < |keys| && Flagged(keys[i], fails) && e == TypeMsg(keys[i].0, keys[i].1.typeDecl.name);
      assert keys[i] in props;
    }
    if exists p :: p in props && Flagged(p, fails) && e == TypeMsg(p.0, p.1.typeDecl.name) {
      var p :| p in props && Flagged(p, fails) && e == TypeMsg(p.0, p.1.typeDecl.name);
      assert p in keys;
      var i :| 0 <= i < |keys| && keys[i] == p;
    }
  }

  lemma SubseqDropHead<T>(a: seq<T>, b: seq<T>)
    requires |b| > 0 && Subseq(a, b[1..])
    ensures Subseq(a, b)
  {
  }

  lemma {:induction false} MissingErrorsInOrder(required: seq<string>, present: string -> bool)
    ensures Subseq(MissingErrors(required, present), MissingMessages(required))
  {
    if |required| > 0 {
      MissingErrorsInOrder(required[1..], present);
      assert MissingMessages(required)[1..] == MissingMessages(required[1..]);
      var rest := MissingErrors(required[1..], present);
      if present(required[0]) {
        assert MissingErrors(required, present) == rest;
        SubseqDropHead(rest, MissingMessages(required));
      } else {
        assert MissingErrors(required, present) == [MissingMsg(required[0])] + rest;
        assert MissingErrors(required, present)[1..] == rest;
      }
    }
  }

  /** The report lists the missing-field messages first, in the order of
      `required`, then only wrong-type messages: no missing-field message
      ever follows a wrong-type message. */
  lemma ReportOrdered(required: seq<string>, present: string -> bool,
                      props: seq<(string, Schema)>, fails: ((string, Schema)) -> bool) returns (k: nat)
    ensures k == |MissingErrors(required, present)|
    ensures Subseq((MissingErrors(required, present) + TypeErrors(props, fails))[..k], MissingMessages(required))
    ensures forall i :: k <= i < |MissingErrors(required, present) + TypeErrors(props, fails)|
              ==> IsTypeMsg((MissingErrors(required, present) + TypeErrors(props, fails))[i])
  {
    var req := MissingErrors(required, present);
    var typ := TypeErrors(props, fails);
    var errs := req + typ;
    k := |req|;
    assert errs[..k] == req;
    MissingErrorsInOrder(required, present);
    forall i | k <= i < |errs|
      ensures IsTypeMsg(errs[i])
    {
      assert errs[i] == typ[i - k];
    }
  }
}

=== FILE: schema.dfy ===
/**
 The JSON-Schema-lite records that abilities declare for their input, and
 the accessors both validators and the example generator share.

 A schema is a PHP associative array. The record keeps the keys the plugin
 reads; a key that is absent and a key whose value is null read the same
 through `isset`, so both are `Untyped`/`None`/`Null` here, and
 `hasOtherKeys` records whether the array holds any key the other fields do
 not capture (`description`, `title`, a key set to null, ...), which is what
 decides PHP `empty($schema)`.
 */
module Schemas {
  import opened Values

  /** The `type` keyword (section 6.1.1 of JSON Schema Validation draft
      2020-12): absent, one type name, or an array of type names. */
  datatype TypeDecl = Untyped | Named(name: string) | Union(names: seq<string>)

  datatype Schema = Schema(
    typeDecl: TypeDecl,
    properties: Option<seq<(string, Schema)>>,  // None: absent, null or not an array
    required: Option<seq<string>>,              // None: absent, null or not an array
    default: Value,                             // Null: absent or null
    example: Value,                             // Null: absent or null
    hasOtherKeys: bool)

  /** The schema with no keys at all: PHP `array()`, JSON `[]`. */
  const NoSchema := Schema(Untyped, None, None, Null, Null, false)

  /** PHP `empty($schema)`: the array has no keys. */
  predicate IsEmpty(s: Schema)
  {
    s == NoSchema
  }

  function RequiredNames(s: Schema): seq<string>
  {
    if s.required.Some? then s.required.value else []
  }

  function PropertyList(s: Schema): seq<(string, Schema)>
  {
    if s.properties.Some? then s.properties.value else []
  }
}

=== FILE: seqs.dfy ===
/**
 Sequence vocabulary shared by the list pipeline and the validators:
 filtering (PHP `array_filter` followed by re-indexing), the subsequence
 relation, and occurrence counting.
 */
module Seqs {

  function Filter<T>(s: seq<T>, p: T -> bool): (r: seq<T>)
    ensures |r| <= |s|
    ensures forall i :: 0 <= i < |r| ==> r[i] in s && p(r[i])
    ensures forall i :: 0 <= i < |s| && p(s[i]) ==> s[i] in r
  {
    if |s| == 0 then []
    else if p(s[0]) then [s[0]] + Filter(s[1..], p)
    else Filter(s[1..], p)
  }

  /** `a` is obtained from `b` by deleting elements, keeping the order of the rest. */
  predicate Subseq<T(==)>(a: seq<T>, b: seq<T>)
    decreases |b|
  {
    if |a| == 0 then true
    else if |b| == 0 then false
    else (a[0] == b[0] && Subseq(a[1..], b[1..])) || Subseq(a, b[1..])
  }

  lemma {:induction false} SubseqRefl<T>(s: seq<T>)
    ensures Subseq(s, s)
  {
    if |s| > 0 {
      SubseqRefl(s[1..]);
    }
  }

  lemma {:induction false} FilterIsSubseq<T>(s: seq<T>, p: T -> bool)
    ensures Subseq(Filter(s, p), s)
  {
    if |s| > 0 {
      FilterIsSubseq(s[1..], p);
      if p(s[0]) {
        assert Filter(s, p)[1..] == Filter(s[1..], p);
      }
    }
  }

  lemma {:induction false} FilterKeepsAll<T>(s: seq<T>, p: T -> bool)
    requires forall i :: 0 <= i < |s| ==> p(s[i])
    ensures Filter(s, p) == s
  {
    if |s| > 0 {
      FilterKeepsAll(s[1..], p);
    }
  }

  lemma {:induction false} FilterNone<T>(s: seq<T>, p: T -> bool)
    requires forall i :: 0 <= i < |s| ==> !p(s[i])
    ensures Filter(s, p) == []
  {
    if |s| > 0 {
      FilterNone(s[1..], p);
    }
  }

  /** Filtering one more element at the end. */
  lemma {:induction false} FilterAppend<T>(s: seq<T>, x: T, p: T -> bool)
    ensures Filter(s + [x], p) == Filter(s, p) + (if p(x) then [x] else [])
  {
    if |s| == 0 {
      assert s + [x] == [x];
    } else {
      assert (s + [x])[0] == s[0];
      assert (s + [x])[1..] == s[1..] + [x];
      FilterAppend(s[1..], x, p);
    }
  }

  lemma {:induction false} FilterMultiset<T>(s: seq<T>, p: T -> bool)
    ensures multiset(Filter(s, p)) <= multiset(s)
  {
    if |s| > 0 {
      FilterMultiset(s[1..], p);
      assert s == [s[0]] + s[1..];
    }
  }

  /** Filtering by a predicate and by its complement splits `s` into two
      parts that together hold exactly the elements of `s`. */
  lemma {:induction false} FilterPartition<T>(s: seq<T>, p: T -> bool, q: T -> bool)
    requires forall x :: q(x) <==> !p(x)
    ensures multiset(Filter(s, p)) + multiset(Filter(s, q)) == multiset(s)
  {
    if |s| > 0 {
      FilterPartition(s[1..], p, q);
      assert s == [s[0]] + s[1..];
    }
  }

  /** The number of occurrences of `x` in `s`. */
  function Count<T(==)>(s: seq<T>, x: T): (n: nat)
    ensures n <= |s|
    ensures n == 0 <==> x !in s
  {
    if |s| == 0 then 0
    else (if s[0] == x then 1 else 0) + Count(s[1..], x)
  }

  lemma {:induction false} CountConcat<T>(a: seq<T>, b: seq<T>, x: T)
    ensures Count(a + b, x) == Count(a, x) + Count(b, x)
  {
    if |a| == 0 {
      assert a + b == b;
    } else {
      assert (a + b)[0] == a[0];
      assert (a + b)[1..] == a[1..] + b;
      CountConcat(a[1..], b, x);
    }
  }

  /** Lexicographic order by `less`, with a proper prefix first. */
  predicate LexLess<T(==)>(a: seq<T>, b: seq<T>, less: (T, T) -> bool)
  {
    || (|a| < |b| && a == b[..|a|])
    || (exists k :: 0 <= k < |a| && k < |b| && a[..k] == b[..k] && less(a[k], b[k]))
  }

  /** The lexicographic order of two non-empty sequences is decided by their
      heads, or by their tails when the heads are equal. */
  lemma LexLessStep<T>(a: seq<T>, b: seq<T>, less: (T, T) -> bool)
    requires |a| > 0 && |b| > 0
    ensures LexLess(a, b, less) <==> less(a[0], b[0]) || (a[0] == b[0] && LexLess(a[1..], b[1..], less))
  {
    if less(a[0], b[0]) || (a[0] == b[0] && LexLess(a[1..], b[1..], less)) {
      LexLessFromHead(a, b, less);
    }
    if LexLess(a, b, less) && !less(a[0], b[0]) {
      LexLessToHead(a, b, less);
    }
  }

  lemma LexLessFromHead<T>(a: seq<T>, b: seq<T>, less: (T, T) -> bool)
    requires |a| > 0 && |b| > 0
    requires less(a[0], b[0]) || (a[0] == b[0] && LexLess(a[1..], b[1..], less))
    ensures LexLess(a, b, less)
  {
    var a', b' := a[1..], b[1..];
    if less(a[0], b[0]) {
      assert a[..0] == b[..0];
    } else if |a'| < |b'| && a' == b'[..|a'|] {
      assert a == b[..|a|];
    } else {
      var k :| 0 <= k < |a'| && k < |b'| && a'[..k] == b'[..k] && less(a'[k], b'[k]);
      assert a[..k + 1] == [a[0]] + a'[..k];
      assert b[..k + 1] == [b[0]] + b'[..k];
      assert a[k + 1] == a'[k] && b[k + 1] == b'[k];
    }
  }

  lemma LexLessToHead<T>(a: seq<T>, b: seq<T>, less: (T, T) -> bool)
    requires |a| > 0 && |b| > 0
    requires LexLess(a, b, less) && !less(a[0], b[0])
    ensures a[0] == b[0] && LexLess(a[1..], b[1..], less)
  {
    var a', b' := a[1..], b[1..];
    if |a| < |b| && a == b[..|a|] {
      assert a[0] == b[0];
      assert a' == b'[..|a'|];
    } else {
      var k :| 0 <= k < |a| && k < |b| && a[..k] == b[..k] && less(a[k], b[k]);
      assert k > 0;
      assert a[0] == a[..k][0] == b[..k][0] == b[0];
      assert a'[..k - 1] == a[..k][1..];
      assert b'[..k - 1] == b[..k][1..];
      assert a'[k - 1] == a[k] && b'[k - 1] == b[k];
    }
  }

  lemma {:induction false} SubseqTrans<T>(a: seq<T>, b: seq<T>, c: seq<T>)
    requires Subseq(a, b) && Subseq(b, c)
    ensures Subseq(a, c)
    decreases |c|
  {
    if |a| > 0 && |c| > 0 {
      if b[0] == c[0] && Subseq(b[1..], c[1..]) {
        if a[0] == b[0] && Subseq(a[1..], b[1..]) {
          SubseqTrans(a[1..], b[1..], c[1..]);
        } else {
          SubseqTrans(a, b[1..], c[1..]);
        }
      } else {
        SubseqTrans(a, b, c[1..]);
      }
    }
  }

  lemma {:induction false} SubseqLength<T>(a: seq<T>, b: seq<T>)
    requires Subseq(a, b)
    ensures |a| <= |b|
    decreases |b|
  {
    if |a| > 0 {
      if a[0] == b[0] && Subseq(a[1..], b[1..]) {
        SubseqLength(a[1..], b[1..]);
      } else {
        SubseqLength(a, b[1..]);
      }
    }
  }

  lemma {:induction false} SubseqMultiset<T>(a: seq<T>, b: seq<T>)
    requires Subseq(a, b)
    ensures multiset(a) <= multiset(b)
    decreases |b|
  {
    if |a| > 0 {
      assert b == [b[0]] + b[1..];
      if a[0] == b[0] && Subseq(a[1..], b[1..]) {
        SubseqMultiset(a[1..], b[1..]);
        assert a == [a[0]] + a[1..];
      } else {
        SubseqMultiset(a, b[1..]);
      }
    }
  }

  lemma SliceMultiset<T>(s: seq<T>, i: nat, j: nat)
    requires i <= j <= |s|
    ensures multiset(s[i..j]) <= multiset(s)
  {
    assert s == s[..i] + s[i..j] + s[j..];
  }
}

=== FILE: site_health.dfy ===
/**
 The demo ability "ability-explorer/get-site-health" (abilities/site-health.php),
 its `execute_callback`: run the direct Site Health tests, count the results
 by status, list the critical ones, and derive an overall status and a
 percentage score.

 `WP_Site_Health::get_tests()` is the `tests` parameter; calling a test's
 callback is the `run` parameter, which maps the descriptor's `test` entry to
 what the call does: not callable, a returned result, or a thrown exception.
 */
module SiteHealth {
  import opened Values
  import opened Seqs
  import Handler

  // ---------------------------------------------------------------------
  // Running the direct tests

  /** The descriptors under `$tests['direct']`, when it is set. */
  function DirectTests(tests: Value): seq<Value>
  {
    match Get(tests, "direct")
    case Some(Map(entries)) => seq(|entries|, i requires 0 <= i < |entries| => entries[i].1)
    case Some(List(items)) => items
    case _ => []
  }

  /** `$test['test']`, null when the descriptor has no such entry. */
  function Callback(descriptor: Value): Value
  {
    if Get(descriptor, "test").Some? then Get(descriptor, "test").value else Null
  }

  /** What calling a descriptor's `test` entry does: the entry is not
      callable, or the call returns a result, or it throws an `Exception`
      with a message and a trace. */
  datatype TestCall = NotCallable | Ran(result: Value) | Threw(message: string, trace: string)

  /** How the loop ends: every test was visited, or the first throw left
      the loop, and with it the callback. */
  datatype Run = Completed(results: seq<Value>) | Aborted(message: string, trace: string)

  /** The call made for each descriptor, in order. */
  function Calls(descriptors: seq<Value>, run: Value -> TestCall): (calls: seq<TestCall>)
    ensures |calls| == |descriptors|
    ensures forall i :: 0 <= i < |descriptors| ==> calls[i] == run(Callback(descriptors[i]))
  {
    seq(|descriptors|, i requires 0 <= i < |descriptors| => run(Callback(descriptors[i])))
  }

  /** The results of the calls that returned, in order. */
  function Returns(calls: seq<TestCall>): (r: seq<Value>)
    ensures |r| <= |calls|
  {
    if |calls| == 0 then []
    else (if calls[0].Ran? then [calls[0].result] else []) + Returns(calls[1..])
  }

  /** The `foreach` over the calls: a throw ends it at once; otherwise it
      collects the results of the calls that returned. */
  function Collect(calls: seq<TestCall>): (r: Run)
    ensures r.Aborted? <==> exists i :: 0 <= i < |calls| && calls[i].Threw?
    ensures r.Aborted? ==>
      exists i :: 0 <= i < |calls| && calls[i] == Threw(r.message, r.trace) && forall j :: 0 <= j < i ==> !calls[j].Threw?
    ensures r.Completed? ==> r.results == Returns(calls)
  {
    if |calls| == 0 then Completed([])
    else
      var rest := Collect(calls[1..]);
      assert forall i :: 0 < i < |calls| ==> calls[i] == calls[1..][i - 1];
      match calls[0]
      case Threw(m, t) => Aborted(m, t)
      case NotCallable => rest
      case Ran(v) => if rest.Completed? then Completed([v] + rest.results) else rest
  }

  /** The direct tests, run in order: the results of the callable tests, or
      the exception of the first test that throws. */
  function RunAll(descriptors: seq<Value>, run: Value -> TestCall): (r: Run)
    ensures r.Aborted? <==> exists i :: 0 <= i < |descriptors| && run(Callback(descriptors[i])).Threw?
    ensures r.Aborted? ==>
      exists i :: && 0 <= i < |descriptors|
                  && run(Callback(descriptors[i])) == Threw(r.message, r.trace)
                  && forall j :: 0 <= j < i ==> !run(Callback(descriptors[j])).Threw?
    ensures r.Completed? ==> |r.results| <= |descriptors|
    ensures r.Completed? ==> r.results == Returns(Calls(descriptors, run))
  {
    Collect(Calls(descriptors, run))
  }

  // ---------------------------------------------------------------------
  // The tally, as the loop builds it

  /** `$result['status']` when set, null otherwise. */
  function StatusOf(result: Value): Value
  {
    if Isset(result, "status") then Get(result, "status").value else Null
  }

  predicate IsCritical(result: Value)
  {
    StatusOf(result) == Str("critical")
  }

  /** The entry of `critical_issues` for a critical result. */
  function Issue(result: Value): Value
  {
    Map([("label", if Isset(result, "label") then Get(result, "label").value else Str("Unknown Issue")),
         ("description", if Isset(result, "description") then Get(result, "description").value else Str(""))])
  }

  datatype Tally = Tally(good: nat, recommended: nat, critical: nat, issues: seq<Value>)

  /** One iteration of the loop: a status compared strictly with "good",
      "recommended" and "critical"; anything else is skipped. */
  function Step(t: Tally, result: Value): Tally
  {
    var status := StatusOf(result);
    if status == Str("good") then t.(good := t.good + 1)
    else if status == Str("recommended") then t.(recommended := t.recommended + 1)
    else if status == Str("critical") then t.(critical := t.critical + 1, issues := t.issues + [Issue(result)])
    else t
  }

  /** The loop over the results. */
  function Aggregate(results: seq<Value>): Tally
  {
    if |results| == 0 then Tally(0, 0, 0, [])
    else Step(Aggregate(results[..|results| - 1]), results[|results| - 1])
  }

  // ---------------------------------------------------------------------
  // The tally, stated directly

  function Statuses(results: seq<Value>): (s: seq<Value>)
    ensures |s| == |results|
    ensures forall i :: 0 <= i < |results| ==> s[i] == StatusOf(results[i])
  {
    seq(|results|, i requires 0 <= i < |results| => StatusOf(results[i]))
  }

  function IssuesOf(results: seq<Value>): seq<Value>
  {
    var critical := Filter(results, IsCritical);
    seq(|critical|, i requires 0 <= i < |critical| => Issue(critical[i]))
  }

  lemma IssuesOfSnoc(results: seq<Value>)
    requires |results| > 0
    ensures var last := results[|results| - 1];
      IssuesOf(results) == IssuesOf(results[..|results| - 1]) + (if IsCritical(last) then [Issue(last)] else [])
  {
    var init := results[..|results| - 1];
    var last := results[|results| - 1];
    assert results == init + [last];
    FilterAppend(init, last, IsCritical);
  }

  /** The tally's count for one of the three statuses. */
  function Counted(t: Tally, status: string): nat
  {
    if status == "good" then t.good
    else if status == "recommended" then t.recommended
    else t.critical
  }

  predicate Tallied(status: string)
  {
    status == "good" || status == "recommended" || status == "critical"
  }

  lemma StepCounted(t: Tally, result: Value, status: string)
    requires Tallied(status)
    ensures Counted(Step(t, result), status) == Counted(t, status) + (if StatusOf(result) == Str(status) then 1 else 0)
  {
  }

  lemma StatusesSnoc(results: seq<Value>, x: Value)
    requires |results| > 0
    ensures Count(Statuses(results), x)
         == Count(Statuses(results[..|results| - 1]), x) + (if StatusOf(results[|results| - 1]) == x then 1 else 0)
  {
    var init := results[..|results| - 1];
    var last := results[|results| - 1];
    assert Statuses(results) == Statuses(init) + [StatusOf(last)];
    CountConcat(Statuses(init), [StatusOf(last)], x);
  }

  lemma {:induction false} AggregateCounted(results: seq<Value>, status: string)
    requires Tallied(status)
    ensures Counted(Aggregate(results), status) == Count(Statuses(results), Str(status))
  {
    if |results| > 0 {
      var init := results[..|results| - 1];
      var last := results[|results| - 1];
      AggregateCounted(init, status);
      StepCounted(Aggregate(init), last, status);
      StatusesSnoc(results, Str(status));
    }
  }

  /** The loop counts, for each of the three statuses, exactly the results
      that carry it. */
  lemma AggregateCounts(results: seq<Value>)
    ensures var t := Aggregate(results);
      && t.good == Count(Statuses(results), Str("good"))
      && t.recommended == Count(Statuses(results), Str("recommended"))
      && t.critical == Count(Statuses(results), Str("critical"))
  {
    AggregateCounted(results, "good");
    AggregateCounted(results, "recommended");
    AggregateCounted(results, "critical");
  }

  /** The loop lists one issue per critical result, in test order. */
  lemma {:induction false} AggregateIssues(results: seq<Value>)
    ensures Aggregate(results).issues == IssuesOf(results)
  {
    if |results| > 0 {
      var init := results[..|results| - 1];
      var last := results[|results| - 1];
      AggregateIssues(init);
      assert Aggregate(results) == Step(Aggregate(init), last);
      IssuesOfSnoc(results);
    }
  }

  /** A result whose status is one of the three the loop counts. */
  predicate IsTallied(result: Value)
  {
    StatusOf(result) in {Str("good"), Str("recommended"), Str("critical")}
  }

  lemma StepTotal(t: Tally, result: Value)
    ensures var t' := Step(t, result);
      && t'.good + t'.recommended + t'.critical == t.good + t.recommended + t.critical + (if IsTallied(result) then 1 else 0)
      && |t'.issues| - t'.critical == |t.issues| - t.critical
  {
  }

  /** The three counts add up to the number of results whose status is one
      of them, and never exceed the number of results. */
  lemma {:induction false} CountsBounded(results: seq<Value>)
    ensures var t := Aggregate(results);
      t.good + t.recommended + t.critical <= |results|
    ensures var t := Aggregate(results);
      (t.good + t.recommended + t.critical == |results|) <==> forall i :: 0 <= i < |results| ==> IsTallied(results[i])
    ensures |Aggregate(results).issues| == Aggregate(results).critical
  {
    if |results| > 0 {
      var init := results[..|results| - 1];
      var last := results[|results| - 1];
      CountsBounded(init);
      assert Aggregate(results) == Step(Aggregate(init), last);
      StepTotal(Aggregate(init), last);
      assert forall i :: 0 <= i < |init| ==> init[i] == results[i];
    }
  }

  // ---------------------------------------------------------------------
  // Status and score

  /** The worst status present; "good" when nothing was counted. */
  function OverallStatus(t: Tally): (s: string)
    ensures s == "critical" <==> t.critical > 0
    ensures s == "recommended" <==> t.critical == 0 && t.recommended > 0
    ensures s == "good" <==> t.critical == 0 && t.recommended == 0
  {
    if t.critical > 0 then "critical"
    else if t.recommended > 0 then "recommended"
    else "good"
  }

  /** `round($good / $total * 100)`, in exact arithmetic with halves
      rounded up; 0 when nothing was counted. */
  function Score(good: nat, total: nat): nat
    requires good <= total
  {
    if total == 0 then 0 else (200 * good + total) / (2 * total)
  }

  lemma MulMonotone(a: nat, b: nat, t: nat)
    requires a <= b
    ensures a * t <= b * t
  {
  }

  /** The score is the percentage of good results rounded to the nearest
      integer (halves up), and lies between 0 and 100. */
  lemma ScoreIsNearestPercentage(good: nat, total: nat)
    requires good <= total && total > 0
    ensures Score(good, total) <= 100
    ensures 2 * total * Score(good, total) <= 200 * good + total < 2 * total * Score(good, total) + 2 * total
  {
    var s := Score(good, total);
    var n := 200 * good + total;
    var d := 2 * total;
    assert s == n / d;
    assert d * s <= n < d * s + d;
    if s > 100 {
      MulMonotone(101, s, d);
      assert false;
    }
  }

  /** Below 200 counted tests the score is 100 exactly when every test is
      good, and 0 exactly when none is. */
  lemma ScoreExtremes(good: nat, total: nat)
    requires good <= total && 0 < total < 200
    ensures Score(good, total) == 100 <==> good == total
    ensures Score(good, total) == 0 <==> good == 0
  {
    ScoreIsNearestPercentage(good, total);
    var s := Score(good, total);
    if good == total && s < 100 {
      MulMonotone(s, 99, 2 * total);
      assert false;
    }
    if good == 0 && s > 0 {
      MulMonotone(1, s, 2 * total);
      assert false;
    }
  }

  /** From 200 tests on, rounding hides a single failure: 199 good out of
      200 scores 100 although the status is not "good". */
  lemma ScoreRoundsUpToFull()
    ensures Score(199, 200) == 100
    ensures OverallStatus(Tally(199, 1, 0, [])) == "recommended"
  {
  }

  // ---------------------------------------------------------------------
  // The callback

  /** `(bool) $input['include_details']` when set, false otherwise. */
  predicate IncludeDetails(input: Value)
  {
    Isset(input, "include_details") && Truthy(Get(input, "include_details").value)
  }

  /** The score of a tally: the share of good results among the counted ones. */
  function TallyScore(t: Tally): nat
  {
    Score(t.good, t.good + t.recommended + t.critical)
  }

  /** The response array before the optional `tests` entry. */
  function Summary(t: Tally): (entries: seq<(string, Value)>)
  {
    [("status", Str(OverallStatus(t))),
     ("score", Int(TallyScore(t))),
     ("counts", Map([("good", Int(t.good)), ("recommended", Int(t.recommended)), ("critical", Int(t.critical))])),
     ("critical_issues", List(t.issues))]
  }

  /** The response for a tally: the summary, followed by the raw tests when
      the input asks for details. */
  function Respond(t: Tally, tests: Value, input: Value): Value
  {
    Map(if IncludeDetails(input) then Summary(t) + [("tests", tests)] else Summary(t))
  }

  /** `execute_callback($input)`: the response, or the exception of the test
      that threw, which leaves the callback for `invoke_ability` to catch.
      The callback never returns a `WP_Error`. */
  function Execute(tests: Value, run: Value -> TestCall, input: Value): (r: Handler.ExecOutcome)
    ensures r.Returned? || r.Raised?
  {
    match RunAll(DirectTests(tests), run)
    case Completed(results) => Handler.Returned(Respond(Aggregate(results), tests, input))
    case Aborted(m, t) => Handler.Raised(m, t)
  }

  lemma SummaryFields(t: Tally, extra: seq<(string, Value)>)
    requires extra == [] || (|extra| == 1 && extra[0].0 == "tests")
    ensures var e := Summary(t) + extra;
      && Lookup(e, "status") == Some(Str(OverallStatus(t)))
      && Lookup(e, "score") == Some(Int(TallyScore(t)))
      && Lookup(e, "counts") == Some(Map([("good", Int(t.good)), ("recommended", Int(t.recommended)), ("critical", Int(t.critical))]))
      && Lookup(e, "critical_issues") == Some(List(t.issues))
      && (Lookup(e, "tests").Some? <==> extra != [])
      && (extra != [] ==> Lookup(e, "tests") == Some(extra[0].1))
  {
    var e := Summary(t) + extra;
    LookupFirst(e, 0);
    LookupFirst(e, 1);
    LookupFirst(e, 2);
    LookupFirst(e, 3);
    if extra != [] {
      LookupFirst(e, 4);
    }
  }

  /** The response carries the tally's status, score and issue list, and
      the raw tests exactly when details are asked for. */
  lemma RespondFields(t: Tally, tests: Value, input: Value)
    ensures var response := Respond(t, tests, input);
      && Get(response, "status") == Some(Str(OverallStatus(t)))
      && Get(response, "score") == Some(Int(TallyScore(t)))
      && Get(response, "counts") == Some(Map([("good", Int(t.good)), ("recommended", Int(t.recommended)), ("critical", Int(t.critical))]))
      && Get(response, "critical_issues") == Some(List(t.issues))
      && (Get(response, "tests").Some? <==> IncludeDetails(input))
      && (IncludeDetails(input) ==> Get(response, "tests") == Some(tests))
  {
    if IncludeDetails(input) {
      SummaryFields(t, [("tests", tests)]);
    } else {
      SummaryFields(t, []);
      assert Summary(t) + [] == Summary(t);
    }
  }

  /** The callback raises exactly when some direct test throws, and then
      with the first such test's exception. */
  lemma ExecuteRaises(tests: Value, run: Value -> TestCall, input: Value)
    ensures var d := DirectTests(tests);
      Execute(tests, run, input).Raised? <==> exists i :: 0 <= i < |d| && run(Callback(d[i])).Threw?
    ensures var d := DirectTests(tests);
      var e := Execute(tests, run, input);
      e.Raised? ==>
        exists i :: && 0 <= i < |d|
                    && run(Callback(d[i])) == Threw(e.message, e.trace)
                    && forall j :: 0 <= j < i ==> !run(Callback(d[j])).Threw?
  {
  }

  /** When no test throws, the callback returns a response whose figures are
      the tally of the callable tests' results and which holds the raw tests
      exactly when the input asks for details. */
  lemma ExecuteReports(tests: Value, run: Value -> TestCall, input: Value)
    ensures var r := RunAll(DirectTests(tests), run);
      r.Completed? ==>
        && Execute(tests, run, input).Returned?
        && Get(Execute(tests, run, input).value, "status") == Some(Str(OverallStatus(Aggregate(r.results))))
        && Get(Execute(tests, run, input).value, "score") == Some(Int(TallyScore(Aggregate(r.results))))
        && Get(Execute(tests, run, input).value, "critical_issues") == Some(List(IssuesOf(r.results)))
        && (Get(Execute(tests, run, input).value, "tests").Some? <==> IncludeDetails(input))
        && (IncludeDetails(input) ==> Get(Execute(tests, run, input).value, "tests") == Some(tests))
  {
    var r := RunAll(DirectTests(tests), run);
    if r.Completed? {
      AggregateIssues(r.results);
      RespondFields(Aggregate(r.results), tests, input);
    }
  }

  /** When no test throws, the response's `counts` holds, for each of the
      three statuses, the number of callable direct tests whose result
      carries it. */
  lemma ExecuteCounts(tests: Value, run: Value -> TestCall, input: Value)
    ensures var r := RunAll(DirectTests(tests), run);
      r.Completed? ==>
        Get(Execute(tests, run, input).value, "counts")
          == Some(Map([("good", Int(Count(Statuses(r.results), Str("good")))),
                       ("recommended", Int(Count(Statuses(r.results), Str("recommended")))),
                       ("critical", Int(Count(Statuses(r.results), Str("critical"))))]))
  {
    var r := RunAll(DirectTests(tests), run);
    if r.Completed? {
      AggregateCounts(r.results);
      RespondFields(Aggregate(r.results), tests, input);
    }
  }

  /** No direct tests (or none callable): status "good", score 0. */
  lemma NoTestsIsGood(tests: Value, run: Value -> TestCall, input: Value)
    requires RunAll(DirectTests(tests), run) == Completed([])
    ensures Execute(tests, run, input).Returned?
    ensures Get(Execute(tests, run, input).value, "status") == Some(Str("good"))
    ensures Get(Execute(tests, run, input).value, "score") == Some(Int(0))
  {
    ExecuteReports(tests, run, input);
  }
}

=== FILE: sorting.dfy ===
/**
 A stable sort driven by a three-way comparator, as PHP 8's `usort` is.
 Sorting is modelled as insertion sort: for a comparator that is a total
 preorder every stable sort returns this same sequence.
 */
module Sorting {
  import opened Seqs

  /** `cmp` is a total preorder on the values in `dom`: any two are comparable
      and "not greater" is transitive. */
  ghost predicate TotalPreorderOn<T>(cmp: (T, T) -> int, dom: set<T>)
  {
    && (forall a, b :: a in dom && b in dom ==> cmp(a, b) <= 0 || cmp(b, a) <= 0)
    && (forall a, b, c :: a in dom && b in dom && c in dom && cmp(a, b) <= 0 && cmp(b, c) <= 0 ==> cmp(a, c) <= 0)
  }

  ghost predicate Sorted<T>(s: seq<T>, cmp: (T, T) -> int)
  {
    forall i, j :: 0 <= i < j < |s| ==> cmp(s[i], s[j]) <= 0
  }

  /** Inserts `x` after every element that does not compare greater than it. */
  function Insert<T>(x: T, s: seq<T>, cmp: (T, T) -> int): (r: seq<T>)
    ensures multiset(r) == multiset(s) + multiset{x}
    ensures |r| == |s| + 1
  {
    if |s| == 0 then [x]
    else if cmp(s[0], x) > 0 then [x] + s
    else
      var rest := Insert(x, s[1..], cmp);
      assert s == [s[0]] + s[1..];
      [s[0]] + rest
  }

  function InsertionSort<T>(s: seq<T>, cmp: (T, T) -> int): (r: seq<T>)
    ensures multiset(r) == multiset(s)
    ensures |r| == |s|
  {
    if |s| == 0 then []
    else
      var r := Insert(s[|s| - 1], InsertionSort(s[..|s| - 1], cmp), cmp);
      assert s == s[..|s| - 1] + [s[|s| - 1]];
      r
  }

  lemma {:induction false} InsertSorted<T>(x: T, s: seq<T>, cmp: (T, T) -> int, dom: set<T>)
    requires TotalPreorderOn(cmp, dom)
    requires x in dom && forall y :: y in s ==> y in dom
    requires Sorted(s, cmp)
    ensures Sorted(Insert(x, s, cmp), cmp)
  {
    if |s| > 0 {
      if cmp(s[0], x) > 0 {
        assert cmp(x, s[0]) <= 0;
        forall j | 0 <= j < |s|
          ensures cmp(x, s[j]) <= 0
        {
          if j > 0 {
            assert cmp(s[0], s[j]) <= 0;
          }
        }
      } else {
        InsertSorted(x, s[1..], cmp, dom);
        var rest := Insert(x, s[1..], cmp);
        forall k | 0 <= k < |rest|
          ensures cmp(s[0], rest[k]) <= 0
        {
          assert rest[k] in multiset(rest);
          assert rest[k] in multiset(s[1..]) + multiset{x};
          if rest[k] != x {
            assert rest[k] in s[1..];
            var j :| 0 <= j < |s[1..]| && s[1..][j] == rest[k];
            assert s[j + 1] == rest[k];
          }
        }
      }
    }
  }

  lemma {:induction false} InsertionSortSorted<T>(s: seq<T>, cmp: (T, T) -> int, dom: set<T>)
    requires TotalPreorderOn(cmp, dom)
    requires forall y :: y in s ==> y in dom
    ensures Sorted(InsertionSort(s, cmp), cmp)
  {
    if |s| > 0 {
      var init := s[..|s| - 1];
      InsertionSortSorted(init, cmp, dom);
      var sorted := InsertionSort(init, cmp);
      forall y | y in sorted
        ensures y in dom
      {
        assert y in multiset(sorted);
      }
      InsertSorted(s[|s| - 1], sorted, cmp, dom);
    }
  }

  lemma {:induction false} InsertAfterAll<T>(x: T, s: seq<T>, cmp: (T, T) -> int)
    requires forall i :: 0 <= i < |s| ==> cmp(s[i], x) <= 0
    ensures Insert(x, s, cmp) == s + [x]
  {
    if |s| > 0 {
      InsertAfterAll(x, s[1..], cmp);
    }
  }

  /** A sequence that is already in order comes back unchanged: in particular
      a comparator that finds every pair equal leaves the input order alone. */
  lemma {:induction false} InsertionSortKeepsSorted<T>(s: seq<T>, cmp: (T, T) -> int)
    requires Sorted(s, cmp)
    ensures InsertionSort(s, cmp) == s
  {
    if |s| > 0 {
      var init := s[..|s| - 1];
      assert Sorted(init, cmp);
      InsertionSortKeepsSorted(init, cmp);
      InsertAfterAll(s[|s| - 1], init, cmp);
      assert init + [s[|s| - 1]] == s;
    }
  }

  /** The elements that compare equal to `k` in both directions. */
  function TiesWith<T>(cmp: (T, T) -> int, k: T): T -> bool
  {
    y => cmp(y, k) <= 0 && cmp(k, y) <= 0
  }

  /** When `x` ties with `k` and a sorted `s` starts above `x`, nothing in
      `s` ties with `k`. */
  lemma NoTiesAbove<T>(x: T, s: seq<T>, cmp: (T, T) -> int, dom: set<T>, k: T)
    requires TotalPreorderOn(cmp, dom)
    requires x in dom && k in dom && forall y :: y in s ==> y in dom
    requires Sorted(s, cmp) && |s| > 0 && cmp(s[0], x) > 0
    requires TiesWith(cmp, k)(x)
    ensures forall j :: 0 <= j < |s| ==> !TiesWith(cmp, k)(s[j])
  {
    forall j | 0 <= j < |s|
      ensures !TiesWith(cmp, k)(s[j])
    {
      var y := s[j];
      assert cmp(s[0], y) <= 0;
      assert cmp(k, x) <= 0;
    }
  }

  /** Inserting `x` into a sorted sequence puts it after every element it
      ties with, so among the ties of any `k` it comes last. */
  lemma {:induction false} InsertTies<T>(x: T, s: seq<T>, cmp: (T, T) -> int, dom: set<T>, k: T)
    requires TotalPreorderOn(cmp, dom)
    requires x in dom && k in dom && forall y :: y in s ==> y in dom
    requires Sorted(s, cmp)
    ensures Filter(Insert(x, s, cmp), TiesWith(cmp, k))
         == Filter(s, TiesWith(cmp, k)) + (if TiesWith(cmp, k)(x) then [x] else [])
  {
    var tie := TiesWith(cmp, k);
    if |s| == 0 {
    } else if cmp(s[0], x) > 0 {
      assert Insert(x, s, cmp) == [x] + s;
      assert ([x] + s)[1..] == s;
      if tie(x) {
        NoTiesAbove(x, s, cmp, dom, k);
        FilterNone(s, tie);
      }
    } else {
      var rest := Insert(x, s[1..], cmp);
      assert Sorted(s[1..], cmp);
      InsertTies(x, s[1..], cmp, dom, k);
      assert Insert(x, s, cmp) == [s[0]] + rest;
      assert ([s[0]] + rest)[1..] == rest;
    }
  }

  /** Sorting draws its elements from the input, so it stays within `dom`. */
  lemma SortedWithin<T>(s: seq<T>, cmp: (T, T) -> int, dom: set<T>)
    requires forall y :: y in s ==> y in dom
    ensures forall y :: y in InsertionSort(s, cmp) ==> y in dom
  {
    var sorted := InsertionSort(s, cmp);
    forall y | y in sorted
      ensures y in dom
    {
      assert y in multiset(sorted);
    }
  }

  /** Stability: for a total preorder, the elements tying with any `k` keep
      their relative input order. */
  lemma {:induction false} InsertionSortStable<T>(s: seq<T>, cmp: (T, T) -> int, dom: set<T>, k: T)
    requires TotalPreorderOn(cmp, dom)
    requires k in dom && forall y :: y in s ==> y in dom
    ensures Filter(InsertionSort(s, cmp), TiesWith(cmp, k)) == Filter(s, TiesWith(cmp, k))
  {
    if |s| > 0 {
      var init, last := s[..|s| - 1], s[|s| - 1];
      assert s == init + [last];
      FilterAppend(init, last, TiesWith(cmp, k));
      InsertionSortStable(init, cmp, dom, k);
      InsertionSortSorted(init, cmp, dom);
      var sorted := InsertionSort(init, cmp);
      SortedWithin(init, cmp, dom);
      InsertTies(last, sorted, cmp, dom, k);
      assert InsertionSort(s, cmp) == Insert(last, sorted, cmp);
    }
  }
}

=== FILE: text.dfy ===
/**
 ASCII case folding and the case-insensitive string operations built on it:
 PHP's `stripos`, `strcasecmp`, and the case-insensitive prefix test of a
 `/i` regular expression. PHP folds only the ASCII letters A-Z in all three.
 */
module Text {
  import opened Values
  import opened Seqs

  function Lower(c: char): (d: char)
    ensures 'A' <= c <= 'Z' ==> d as int == c as int + 32
    ensures !('A' <= c <= 'Z') ==> d == c
  {
    if 'A' <= c <= 'Z' then (c as int + 32) as char else c
  }

  function LowerStr(s: string): (t: string)
    ensures |t| == |s|
    ensures forall i :: 0 <= i < |s| ==> t[i] == Lower(s[i])
  {
    seq(|s|, i requires 0 <= i < |s| => Lower(s[i]))
  }

  lemma LowerStrConcat(a: string, b: string)
    ensures LowerStr(a + b) == LowerStr(a) + LowerStr(b)
  {
  }

  /** `p` is a prefix of `s` once both are case-folded. */
  predicate StartsWithCI(s: string, p: string)
  {
    |p| <= |s| && LowerStr(s[..|p|]) == LowerStr(p)
  }

  /** `n` occurs in `h` at position `i`, ignoring ASCII case. */
  predicate MatchAtCI(h: string, n: string, i: int)
  {
    0 <= i && i + |n| <= |h| && LowerStr(h[i..i + |n|]) == LowerStr(n)
  }

  /** The specification of a case-insensitive substring test. */
  ghost predicate ContainsCI(h: string, n: string)
  {
    exists i :: MatchAtCI(h, n, i)
  }

  /** The first position at or after `from` where `n` occurs in `h`, ignoring case. */
  function FindCI(h: string, n: string, from: nat): (r: Option<nat>)
    requires from <= |h| + 1
    decreases |h| + 1 - from
    ensures r.Some? ==> from <= r.value && MatchAtCI(h, n, r.value)
    ensures r.Some? ==> forall i :: from <= i < r.value ==> !MatchAtCI(h, n, i)
    ensures r.None? ==> forall i :: from <= i ==> !MatchAtCI(h, n, i)
  {
    if from + |n| > |h| then
      assert forall i :: from <= i ==> !MatchAtCI(h, n, i);
      None
    else if LowerStr(h[from..from + |n|]) == LowerStr(n) then Some(from)
    else
      assert !MatchAtCI(h, n, from);
      FindCI(h, n, from + 1)
  }

  /** PHP `stripos($h, $n) !== false`. */
  function StrIPos(h: string, n: string): (r: Option<nat>)
  {
    FindCI(h, n, 0)
  }

  lemma StrIPosFindsExactlyContainment(h: string, n: string)
    ensures StrIPos(h, n).Some? <==> ContainsCI(h, n)
  {
    if StrIPos(h, n).Some? {
      assert MatchAtCI(h, n, StrIPos(h, n).value);
    }
  }

  /** The sign of PHP `strcasecmp($a, $b)`: byte-wise comparison of the
      case-folded strings, a proper prefix ordering first. Only the sign is
      kept because it is all `usort` reads. */
  function StrCaseCmp(a: string, b: string): (r: int)
    ensures -1 <= r <= 1
    ensures r == 0 <==> LowerStr(a) == LowerStr(b)
  {
    if |a| == 0 && |b| == 0 then 0
    else if |a| == 0 then -1
    else if |b| == 0 then 1
    else if Lower(a[0]) < Lower(b[0]) then -1
    else if Lower(a[0]) > Lower(b[0]) then 1
    else
      var r := StrCaseCmp(a[1..], b[1..]);
      assert LowerStr(a) == [Lower(a[0])] + LowerStr(a[1..]);
      assert LowerStr(b) == [Lower(b[0])] + LowerStr(b[1..]);
      r
  }

  lemma {:induction false} StrCaseCmpAntisymmetric(a: string, b: string)
    ensures StrCaseCmp(a, b) == -StrCaseCmp(b, a)
    decreases |a|
  {
    if |a| > 0 && |b| > 0 && Lower(a[0]) == Lower(b[0]) {
      StrCaseCmpAntisymmetric(a[1..], b[1..]);
    }
  }

  lemma {:induction false} StrCaseCmpTransitive(a: string, b: string, c: string)
    requires StrCaseCmp(a, b) <= 0 && StrCaseCmp(b, c) <= 0
    ensures StrCaseCmp(a, c) <= 0
    decreases |a|
  {
    if |a| > 0 && |b| > 0 && |c| > 0 && Lower(a[0]) == Lower(b[0]) == Lower(c[0]) {
      StrCaseCmpTransitive(a[1..], b[1..], c[1..]);
    }
  }

  predicate CharBelow(x: char, y: char)
  {
    x < y
  }

  /** `strcasecmp` is negative exactly when the case-folded `a` comes first
      in lexicographic order: a proper prefix of the folded `b`, or smaller
      at the first position where the two differ. */
  lemma {:induction false} StrCaseCmpIsLexicographic(a: string, b: string)
    ensures StrCaseCmp(a, b) < 0 <==> LexLess(LowerStr(a), LowerStr(b), CharBelow)
    decreases |a|
  {
    var la, lb := LowerStr(a), LowerStr(b);
    if |a| == 0 {
      if |b| > 0 {
        assert la == lb[..0];
      }
    } else if |b| > 0 {
      LexLessStep(la, lb, CharBelow);
      assert la[1..] == LowerStr(a[1..]) && lb[1..] == LowerStr(b[1..]);
      if Lower(a[0]) == Lower(b[0]) {
        StrCaseCmpIsLexicographic(a[1..], b[1..]);
      }
    }
  }
}

=== FILE: validator.dfy ===
/**
 The server-side input check, `Ability_Explorer_Handler::validate_input`
 with `validate_type`: a non-conforming subset of JSON Schema that reads
 `required` (section 6.5.3 of JSON Schema Validation draft 2020-12), `type`
 (section 6.1.1) and `properties` with PHP semantics:
 - a key whose value is null counts as missing (`isset`);
 - `number` and `integer` accept numeric strings, and `integer` does not
   check integrality;
 - `object` also accepts arrays, lists included;
 - a type name it does not know, or an array of names, accepts everything.
 */
module Validator {
  import opened Values
  import opened Schemas
  import opened Seqs
  import opened Messages

  datatype ValidationResult = ValidationResult(valid: bool, errors: seq<string>)

  /** `validate_type($value, $expected_type)` for a type name. */
  predicate ValidateType(v: Value, typeName: string)
  {
    match typeName
    case "string" => v.Str?
    case "number" => IsNumeric(v)
    case "integer" => IsNumeric(v)
    case "boolean" => v.Bool?
    case "array" => IsArray(v)
    case "object" => v.EmptyObject? || IsArray(v)
    case _ => true
  }

  /** The server's notion of a present field: `isset($input[$name])`. */
  function Present(input: Value): string -> bool
  {
    name => Isset(input, name)
  }

  /** The server's type failure: the property is set in the input and its
      value fails `validate_type`. An array of type names is never flagged
      (it falls to the switch's default). */
  function Fails(input: Value): ((string, Schema)) -> bool
  {
    (p: (string, Schema)) => p.1.typeDecl.Named? && Isset(input, p.0) && !ValidateType(Get(input, p.0).value, p.1.typeDecl.name)
  }

  /** `validate_input($schema, $input)`. */
  function ValidateInput(schema: Schema, input: Value): (r: ValidationResult)
    ensures IsEmpty(schema) ==> r == ValidationResult(true, [])
    ensures r.valid <==> |r.errors| == 0
    ensures |r.errors| <= |RequiredNames(schema)| + |PropertyList(schema)|
  {
    if IsEmpty(schema) then ValidationResult(true, [])
    else
      var errors := MissingErrors(RequiredNames(schema), Present(input)) + TypeErrors(PropertyList(schema), Fails(input));
      ValidationResult(|errors| == 0, errors)
  }

  /** For every name `f`, the number of `Required field "f" is missing`
      errors is the number of times `f` is listed in `required` when the
      input lacks `f` or holds null under it, and zero otherwise. Present
      values such as false, 0 and "" satisfy the requirement. */
  lemma RequiredErrorCount(schema: Schema, input: Value, f: string)
    ensures Count(ValidateInput(schema, input).errors, MissingMsg(f))
         == (if IsEmpty(schema) || Isset(input, f) then 0 else Count(RequiredNames(schema), f))
  {
    if !IsEmpty(schema) {
      ReportCount(RequiredNames(schema), Present(input), PropertyList(schema), Fails(input), f);
    }
  }

  /** Membership form: a field is reported missing iff the schema is not
      empty, lists it as required, and the input does not set it. */
  lemma MissingReportedIff(schema: Schema, input: Value, f: string)
    ensures MissingMsg(f) in ValidateInput(schema, input).errors
        <==> !IsEmpty(schema) && f in RequiredNames(schema) && !Isset(input, f)
  {
    RequiredErrorCount(schema, input, f);
  }

  /** A `Field "X" should be of type "T"` error is produced exactly for a
      property that is set (non-null) in the input, declares the type name
      T, and whose value that type rejects. */
  lemma TypeErrorIff(schema: Schema, input: Value, name: string, typeName: string)
    ensures TypeMsg(name, typeName) in ValidateInput(schema, input).errors
        <==> (!IsEmpty(schema) &&
              exists i :: 0 <= i < |PropertyList(schema)|
                && PropertyList(schema)[i].1.typeDecl.Named?
                && Isset(input, PropertyList(schema)[i].0)
                && !ValidateType(Get(input, PropertyList(schema)[i].0).value, PropertyList(schema)[i].1.typeDecl.name)
                && TypeMsg(name, typeName) == TypeMsg(PropertyList(schema)[i].0, PropertyList(schema)[i].1.typeDecl.name))
  {
    if !IsEmpty(schema) {
      ReportTypeMembers(RequiredNames(schema), Present(input), PropertyList(schema), Fails(input), name, typeName);
    }
  }

  /** The missing-field errors come first, in the order of `required`;
      every error after them is a type error, and those follow the
      declaration order of `properties`. */
  lemma ErrorsOrdered(schema: Schema, input: Value)
    ensures var errs := ValidateInput(schema, input).errors;
      exists k :: 0 <= k <= |errs|
        && Subseq(errs[..k], MissingMessages(RequiredNames(schema)))
        && (forall i :: k <= i < |errs| ==> IsTypeMsg(errs[i]))
    ensures !IsEmpty(schema) ==>
      var errs := ValidateInput(schema, input).errors;
      var k := |MissingErrors(RequiredNames(schema), Present(input))|;
      k <= |errs| && errs[k..] == TypeErrors(PropertyList(schema), Fails(input))
  {
    var errs := ValidateInput(schema, input).errors;
    if IsEmpty(schema) {
      assert errs[..0] == [];
      assert Subseq(errs[..0], MissingMessages(RequiredNames(schema)));
    } else {
      var k := ReportOrdered(RequiredNames(schema), Present(input), PropertyList(schema), Fails(input));
      assert Subseq(errs[..k], MissingMessages(RequiredNames(schema)));
    }
  }

  /** PHP's loose reading of the declared types: numeric strings pass as
      numbers and integers, floats pass as integers, lists pass as objects,
      null passes no named type, and an unknown type passes everything. */
  lemma LooseTyping(v: Value, other: string)
    requires other !in {"string", "number", "integer", "boolean", "array", "object"}
    ensures ValidateType(Str("30"), "integer") && !ValidateType(Str("thirty"), "integer")
    ensures ValidateType(Float(false, 0), "integer")
    ensures ValidateType(List([]), "object") && ValidateType(EmptyObject, "object")
    ensures !ValidateType(Null, "object") && !ValidateType(Null, "string")
    ensures ValidateType(v, other)
  {
    NumericStringExamples();
  }

  /** A person schema:
      `{required: ["name"], properties: {name: {type: "string"}, age: {type: "integer"}}}`. */
  function PersonSchema(): Schema
  {
    Schema(Named("object"),
           Some([("name", Schema(Named("string"), None, None, Null, Null, false)),
                 ("age", Schema(Named("integer"), None, None, Null, Null, false))]),
           Some(["name"]), Null, Null, false)
  }

  /** `{age: "30"}`: the numeric string passes as an integer; only the name is reported. */
  lemma ScenarioMissingName()
    ensures ValidateInput(PersonSchema(), Map([("age", Str("30"))])) == ValidationResult(false, [MissingMsg("name")])
  {
    NumericStringExamples();
    var s := PersonSchema();
    var props := PropertyList(s);
    var input := Map([("age", Str("30"))]);
    assert Get(input, "name") == None;
    assert Get(input, "age") == Some(Str("30"));
    assert MissingErrors(["name"], Present(input)) == [MissingMsg("name")];
    assert !Flagged(props[0], Fails(input));
    assert !Flagged(props[1], Fails(input));
    assert TypeErrors(props[1..], Fails(input)) == [];
    assert TypeErrors(props, Fails(input)) == [];
  }

  /** `{name: "Ann", age: "thirty"}`: only the age is reported, as a wrong type. */
  lemma ScenarioWrongType()
    ensures ValidateInput(PersonSchema(), Map([("name", Str("Ann")), ("age", Str("thirty"))]))
         == ValidationResult(false, [TypeMsg("age", "integer")])
  {
    var input := Map([("name", Str("Ann")), ("age", Str("thirty"))]);
    assert Get(input, "name") == Some(Str("Ann"));
    assert MissingErrors(["name"], Present(input)) == [];
    WrongAgeFlagged();
  }

  lemma WrongAgeFlagged()
    ensures TypeErrors(PropertyList(PersonSchema()), Fails(Map([("name", Str("Ann")), ("age", Str("thirty"))])))
         == [TypeMsg("age", "integer")]
  {
    var props := PropertyList(PersonSchema());
    var input := Map([("name", Str("Ann")), ("age", Str("thirty"))]);
    PersonFieldsRead(input);
    assert TypeErrors(props[1..], Fails(input)) == [TypeMsg("age", "integer")];
  }

  lemma PersonFieldsRead(input: Value)
    requires input == Map([("name", Str("Ann")), ("age", Str("thirty"))])
    ensures !Flagged(PropertyList(PersonSchema())[0], Fails(input))
    ensures Flagged(PropertyList(PersonSchema())[1], Fails(input))
  {
    NumericStringExamples();
    assert Get(input, "name") == Some(Str("Ann"));
    assert Get(input, "age") == Some(Str("thirty"));
  }
}

=== FILE: values.dfy ===
/**
 The dynamically-typed values the plugin handles: decoded JSON input, PHP
 arrays used as lists or as associative maps, the `stdClass` object the
 example generator builds, and the scalars. One tagged union serves both the
 PHP side and the browser side; each side's own reading of a value (PHP's
 `isset`, truthiness and `is_numeric`; JavaScript's `typeof`) is defined
 next to the code that uses it.
 */
module Values {

  datatype Option<+T> = None | Some(value: T)

  /** A floating-point number. Nothing the plugin does looks inside a float
      except PHP's truthiness test, so the model keeps only whether it is zero
      and an opaque tag that tells floats apart. */
  datatype Value =
    | Null
    | Bool(b: bool)
    | Int(i: int)
    | Float(zero: bool, tag: int)
    | Str(s: string)
    | List(items: seq<Value>)                 // PHP list / JS array
    | Map(entries: seq<(string, Value)>)      // PHP associative array / JS object
    | EmptyObject                             // PHP `new stdClass()`, JSON `{}`

  /** The value stored under `key` in an associative array or object; `None`
      for a missing key and for any value that is not a map (the model treats
      a non-map as having no keys). */
  function Get(v: Value, key: string): (r: Option<Value>)
    ensures r.Some? ==> v.Map? && exists i :: 0 <= i < |v.entries| && v.entries[i] == (key, r.value)
    ensures r.None? <==> !v.Map? || forall i :: 0 <= i < |v.entries| ==> v.entries[i].0 != key
  {
    if !v.Map? then None else Lookup(v.entries, key)
  }

  function Lookup<V>(entries: seq<(string, V)>, key: string): (r: Option<V>)
    ensures r.Some? ==> exists i :: 0 <= i < |entries| && entries[i] == (key, r.value)
    ensures r.None? <==> forall i :: 0 <= i < |entries| ==> entries[i].0 != key
  {
    if |entries| == 0 then None
    else if entries[0].0 == key then Some(entries[0].1)
    else Lookup(entries[1..], key)
  }

  /** The names of an entry list, in order. */
  function Keys<V>(entries: seq<(string, V)>): (ks: seq<string>)
    ensures |ks| == |entries|
    ensures forall i :: 0 <= i < |entries| ==> ks[i] == entries[i].0
  {
    seq(|entries|, i requires 0 <= i < |entries| => entries[i].0)
  }

  /** PHP array keys are unique; an entry list that models one has distinct names. */
  predicate UniqueKeys<V>(entries: seq<(string, V)>)
  {
    forall i, j :: 0 <= i < j < |entries| ==> entries[i].0 != entries[j].0
  }

  /** The entry at `i` is the one found when no earlier entry has its name. */
  lemma {:induction false} LookupFirst<V>(entries: seq<(string, V)>, i: nat)
    requires i < |entries|
    requires forall j :: 0 <= j < i ==> entries[j].0 != entries[i].0
    ensures Lookup(entries, entries[i].0) == Some(entries[i].1)
  {
    if i > 0 {
      LookupFirst(entries[1..], i - 1);
    }
  }

  lemma LookupUnique<V>(entries: seq<(string, V)>, i: nat)
    requires UniqueKeys(entries) && i < |entries|
    ensures Lookup(entries, entries[i].0) == Some(entries[i].1)
  {
    if i > 0 {
      LookupUnique(entries[1..], i - 1);
    }
  }

  /** PHP `$array[$key] = $v` on an associative array: an existing key keeps
      its position and takes the new value, a new key is appended. */
  function Put<V>(entries: seq<(string, V)>, key: string, v: V): seq<(string, V)>
  {
    if |entries| == 0 then [(key, v)]
    else if entries[0].0 == key then [(key, v)] + entries[1..]
    else [entries[0]] + Put(entries[1..], key, v)
  }

  /** After the assignment the key holds the new value and every other key
      reads as before. */
  lemma {:induction false} PutLookup<V>(entries: seq<(string, V)>, key: string, v: V, k: string)
    ensures Lookup(Put(entries, key, v), k) == if k == key then Some(v) else Lookup(entries, k)
  {
    if |entries| > 0 && entries[0].0 != key {
      PutLookup(entries[1..], key, v, k);
      assert ([entries[0]] + Put(entries[1..], key, v))[1..] == Put(entries[1..], key, v);
    } else if |entries| > 0 {
      assert ([(key, v)] + entries[1..])[1..] == entries[1..];
    }
  }

  /** The assignment keeps the key order and appends only a new key. */
  lemma {:induction false} PutKeys<V>(entries: seq<(string, V)>, key: string, v: V)
    ensures Keys(Put(entries, key, v)) == if key in Keys(entries) then Keys(entries) else Keys(entries) + [key]
  {
    if |entries| > 0 {
      var rest := entries[1..];
      PutKeys(rest, key, v);
      assert entries == [entries[0]] + rest;
      KeysConcat([entries[0]], rest);
      if entries[0].0 == key {
        KeysConcat([(key, v)], rest);
      } else {
        KeysConcat([entries[0]], Put(rest, key, v));
      }
    }
  }

  lemma KeysConcat<V>(a: seq<(string, V)>, b: seq<(string, V)>)
    ensures Keys(a + b) == Keys(a) + Keys(b)
  {
  }

  /** PHP `isset($v[$key])`: the key is present and its value is not null. */
  predicate Isset(v: Value, key: string)
  {
    match Get(v, key)
    case Some(x) => x != Null
    case None => false
  }

  /** PHP's conversion to bool: `(bool) $v`, `! $v`, `if ( $v )`. */
  predicate Truthy(v: Value)
  {
    match v
    case Null => false
    case Bool(b) => b
    case Int(i) => i != 0
    case Float(zero, _) => !zero
    case Str(s) => s != "" && s != "0"
    case List(items) => |items| > 0
    case Map(entries) => |entries| > 0
    case EmptyObject => true
  }

  /** PHP `empty()` of a string: the string converts to false. */
  predicate EmptyString(s: string)
  {
    !Truthy(Str(s))
  }

  /** The empty strings are exactly "" and "0". */
  lemma EmptyStringIsFalsy(s: string)
    ensures EmptyString(s) <==> s == "" || s == "0"
  {
  }

  predicate IsDigit(c: char)
  {
    '0' <= c <= '9'
  }

  predicate AllDigits(s: string)
  {
    forall i :: 0 <= i < |s| ==> IsDigit(s[i])
  }

  function DigitValue(c: char): nat
    requires IsDigit(c)
  {
    c as int - '0' as int
  }

  function DigitChar(d: nat): (c: char)
    requires d < 10
    ensures IsDigit(c) && DigitValue(c) == d
  {
    ('0' as int + d) as char
  }

  /** The value of a decimal numeral; leading zeros are allowed. */
  function DigitsValue(s: string): nat
    requires AllDigits(s)
  {
    if |s| == 0 then 0 else 10 * DigitsValue(s[..|s| - 1]) + DigitValue(s[|s| - 1])
  }

  /** The canonical decimal numeral of `n`. */
  function NatToString(n: nat): (s: string)
    ensures |s| >= 1 && AllDigits(s)
  {
    if n < 10 then [DigitChar(n)] else NatToString(n / 10) + [DigitChar(n % 10)]
  }

  lemma {:induction false} NatRoundTrip(n: nat)
    ensures DigitsValue(NatToString(n)) == n
  {
    if n >= 10 {
      var s := NatToString(n);
      NatRoundTrip(n / 10);
      assert s[..|s| - 1] == NatToString(n / 10);
    }
  }

  /** PHP's string form of an integer: its decimal numeral, with a minus
      sign when negative. */
  function IntToString(i: int): (s: string)
    ensures i >= 0 ==> AllDigits(s) && DigitsValue(s) == i
    ensures i < 0 ==> |s| >= 2 && s[0] == '-' && AllDigits(s[1..]) && DigitsValue(s[1..]) == -i
  {
    NatRoundTrip(if i < 0 then -i else i);
    if i < 0 then "-" + NatToString(-i) else NatToString(i)
  }

  /** A decimal numeral with at most one point and at least one digit:
      "12", "1.5", ".5", "3.". */
  predicate IsDecimal(t: string)
  {
    && (exists i :: 0 <= i < |t| && IsDigit(t[i]))
    && (forall i :: 0 <= i < |t| ==> IsDigit(t[i]) || t[i] == '.')
    && (forall i, j :: 0 <= i < j < |t| && t[i] == '.' ==> t[j] != '.')
  }

  /** PHP's `is_numeric` for strings, reduced to an optional sign followed by
      a decimal numeral. */
  predicate IsNumericString(s: string)
  {
    if |s| > 0 && (s[0] == '+' || s[0] == '-') then IsDecimal(s[1..]) else IsDecimal(s)
  }

  /** PHP `is_numeric($v)`: integers, floats and numeric strings. */
  predicate IsNumeric(v: Value)
  {
    v.Int? || v.Float? || (v.Str? && IsNumericString(v.s))
  }

  /** PHP `is_array($v)`: a list or an associative array. */
  predicate IsArray(v: Value)
  {
    v.List? || v.Map?
  }

  lemma NumericStringExamples()
    ensures IsNumericString("30") && IsNumericString("-1.5") && IsNumericString(".5")
    ensures !IsNumericString("thirty") && !IsNumericString("") && !IsNumericString("1.2.3")
    ensures !IsNumericString("-")
  {
    assert IsDigit("30"[0]);
    assert IsDigit("1.5"[0]);
    assert ".5"[1] == '5';
    assert "thirty"[0] == 't';
    assert "1.2.3"[1] == '.' && "1.2.3"[3] == '.';
  }
}
